=== FILE: README.md ===
# InfiniteGrass core, modelled in Dafny

InfiniteGrass draws a field of grass blades around the camera. The
`InfiniteGrassRenderer` component runs once per frame. It builds and caches
the blade mesh, fills a five-entry indirect-arguments record, and issues
one instanced indirect draw over the camera's bounding box. The
`GrassDataPass` render pass cuts the same box into a grid of `spacing`-wide
cells. It dispatches a compute shader over that grid in 8 x 8 thread groups,
and the shader appends one position per visible blade. The pass then copies
the append counter into the instance-count slot of the renderer's record.
The draw therefore reads a count that the GPU computed.

This project models that core with immutable datatypes and pure functions:

- `Mathf`: Unity's floor, ceiling and absolute value, C#'s truncating cast, and the left-to-right `Max`/`Min` over a list.
- `Geometry`: `Vector3` and `Bounds` (center plus extents), including `Bounds.Expand`.
- `CenterPosition`: snapping the camera to the texture-update grid (`CalculateCenterPosition`, which is the same in both scripts).
- `CameraBounds`: both variants of `CalculateCameraBounds` over the eight frustum corners, and proof that they agree.
- `BladeMesh`: the blade geometry and the array-filling loop of `GetGrassMeshCache`.
- `MeshCache`: the mesh cache. It includes both the version as written and a corrected version (see Findings).
- `InfiniteGrassRenderer`:
  - one `LateUpdate` frame as an ordered list of engine calls, for either cache version;
  - `ReleaseBuffers`, `InitializeBuffers` and the frame guard.
- `GrassGrid`: the grid size, start cell and dispatch-group arithmetic of `SetupGrassBuffer`.
- `GrassDataPass`:
  - `Execute`, its `ValidateComponents` guard, and `SetupGrassBuffer` as an ordered command list;
  - a small GPU state (append counter, argument record, debug slot) that gives the counter commands their effect.
- `Traces`: filtering a trace by kind (a helper for the frame lemmas).

Floats are modelled as exact reals, and every float-to-int conversion is an
explicit floor, ceiling or truncation. The following are inputs:

- the camera's position and frustum corners;
- the number of positions the compute shader emits.

The second entry of the argument record is written twice:

- `InitializeBuffers` writes `(uint)(maxBufferCount * 1000000)` into it (InfiniteGrassRenderer.cs line 111). `InitializeArgs` puts `InstanceCapacity(maxBufferCount)` there.
- The pass's `CopyCounterValue(..., ArgsBuffer, 4)` overwrites it with the append counter (GrassDataPass.cs line 159). `FrameFeedsIndirectDraw` shows that a renderer frame followed by the pass leaves the emitted count there.

The model does not order the pass against the draw. That order comes from the
render-pass event of `GrassDataRendererFeature.cs`, which is not part of this
model, so it is assumed that the draw reads the record after the pass.

The mesh cache is modelled in two versions, the source's and a corrected one
(see Findings). `InitializeBuffers` and `LateUpdate` take the version as a
parameter. The frame lemmas hold for both versions wherever the two agree,
and `ThrowingFrame` and `AsWrittenFrameDrawsEmptyMesh` state what the
source's version does where they differ.

## Model

| member | source | states |
|---|---|---|
| Mathf.FloorToInt | Assets/InfiniteGrass/Scripts/GrassDataPass.cs:134 | the result is the greatest integer not above its argument |
| Mathf.CeilToInt | Assets/InfiniteGrass/Scripts/GrassDataPass.cs:133 | the result is the least integer not below its argument |
| Mathf.TruncToInt | Assets/InfiniteGrass/Scripts/GrassDataPass.cs:137 | a C# float-to-int cast rounds toward zero: it lies within one unit of the argument, on the side of zero |
| Mathf.MaxOf | Assets/InfiniteGrass/Scripts/InfiniteGrassRenderer.cs:191 | the running maximum is one of the values and no value exceeds it |
| Mathf.MinOf | Assets/InfiniteGrass/Scripts/InfiniteGrassRenderer.cs:192 | the running minimum is one of the values and no value is below it |
| Mathf.MaxOfSameValues | Assets/InfiniteGrass/Scripts/GrassDataPass.cs:197-201 | the maximum depends only on which values occur, not on their order |
| Mathf.MinOfSameValues | Assets/InfiniteGrass/Scripts/GrassDataPass.cs:191-195 | the minimum depends only on which values occur, not on their order |
| Geometry.Expand | Assets/InfiniteGrass/Scripts/GrassDataPass.cs:204 | `Bounds.Expand(a)` keeps the center and moves every face outward by a/2 |
| CenterPosition.Snap | Assets/InfiniteGrass/Scripts/InfiniteGrassRenderer.cs:99-100 | the snapped coordinate is a multiple of the threshold, within one threshold of the input, on the side the threshold's sign selects |
| CenterPosition.SnapIdempotent | Assets/InfiniteGrass/Scripts/InfiniteGrassRenderer.cs:96-102 | snapping a snapped coordinate changes nothing |
| CenterPosition.SnapSameCell | Assets/InfiniteGrass/Scripts/GrassDataPass.cs:167-173 | two coordinates snap to the same value if and only if they are in the same threshold cell |
| CenterPosition.SnapChangesOnlyAcrossBoundary | Assets/InfiniteGrass/Scripts/GrassDataPass.cs:167-173 | moving forward changes the snapped value only when a multiple of the threshold is crossed, so the data textures are re-centred only at cell boundaries |
| CenterPosition.CenterPositionSameCell | Assets/InfiniteGrass/Scripts/InfiniteGrassRenderer.cs:96-102 | two camera positions share a center position if and only if they are in the same cell on both x and z |
| CameraBounds.CalculateCameraBounds | Assets/InfiniteGrass/Scripts/GrassDataPass.cs:175-206 | every face of the box lies exactly half a unit beyond the extreme corner on its axis, every corner is inside, and the box is not inverted |
| CameraBounds.FitsAroundExtremes | Assets/InfiniteGrass/Scripts/GrassDataPass.cs:191-204 | the expanded box spanned by the per-axis minima and maxima leaves each corner at least the margin inside, with some corner at exactly the margin on each face |
| CameraBounds.ExtremesAgree | Assets/InfiniteGrass/Scripts/InfiniteGrassRenderer.cs:191-198 | on each axis the renderer's corner order and the pass's array give the same maximum and minimum |
| CameraBounds.MaxMinSpansExtremes | Assets/InfiniteGrass/Scripts/InfiniteGrassRenderer.cs:191-205 | the renderer's center `(start + end) / 2` and size `Abs(start - end)` build the same box as the min/max corners |
| CameraBounds.CameraBoundsVariantsAgree | Assets/InfiniteGrass/Scripts/InfiniteGrassRenderer.cs:173-206 | the renderer's bounds and the data pass's bounds are the same box for every frustum, so the draw is culled against the box the grid covers |
| BladeMesh.WriteQuad | Assets/InfiniteGrass/Scripts/InfiniteGrassRenderer.cs:136-154 | one loop iteration writes exactly quad i's four corners and six indices, and leaves the slots of earlier quads alone |
| BladeMesh.WriteTip | Assets/InfiniteGrass/Scripts/InfiniteGrassRenderer.cs:156-164 | the code after the loop writes the tip's three vertices and one triangle and leaves the quads' slots alone |
| BladeMesh.FillQuads | Assets/InfiniteGrass/Scripts/InfiniteGrassRenderer.cs:136-154 | after the loop the arrays hold the stack of s quads, and every slot of the quads has been written exactly once. Each write is counted by the `Store` that performs it, so a repeated or missing write breaks the proof |
| BladeMesh.BuildBladeMesh | Assets/InfiniteGrass/Scripts/InfiniteGrassRenderer.cs:129-167 | a negative subdivision throws (the source throws at line 133 for -2^29 <= s < 0, where `3 + 4 * s` is a negative count that does not wrap). Otherwise the mesh has 3+4s vertices and 3(1+2s) indices, equals the blade, and every array slot is written exactly once, as counted at the writes |
| BladeMesh.BladeCounts | Assets/InfiniteGrass/Scripts/InfiniteGrassRenderer.cs:130-131 | the blade has 3+4s vertices and 3(1+2s) indices, and every index names an existing vertex |
| BladeMesh.QuadTriangles | Assets/InfiniteGrass/Scripts/InfiniteGrassRenderer.cs:147-153 | quad i is the triangles (4i, 4i+3, 4i+1) and (4i, 4i+2, 4i+3), over its own four vertices only |
| BladeMesh.QuadGeometry | Assets/InfiniteGrass/Scripts/InfiniteGrassRenderer.cs:138-145 | quad i spans heights i/(s+1) to (i+1)/(s+1) between x = -0.25 and x = 0.25 |
| BladeMesh.TipTriangle | Assets/InfiniteGrass/Scripts/InfiniteGrassRenderer.cs:156-164 | the last triangle joins the two base corners at s/(s+1) and the apex (0, 1) |
| BladeMesh.SingleTriangleWithoutSubdivision | Assets/InfiniteGrass/Scripts/InfiniteGrassRenderer.cs:16 | subdivision 0 gives a single triangle |
| BladeMesh.QuadsStack | Assets/InfiniteGrass/Scripts/InfiniteGrassRenderer.cs:138-159 | each quad's top edge is the next quad's bottom edge, and the last quad's top edge is the tip's base, so the blade has no gaps |
| BladeMesh.VerticesInBladeRectangle | Assets/InfiniteGrass/Scripts/InfiniteGrassRenderer.cs:136-159 | every vertex lies in the rectangle of width 0.5 and height 1 at z = 0, with the base at height 0 and the apex at height 1 |
| BladeMesh.ConsistentWinding | Assets/InfiniteGrass/Scripts/InfiniteGrassRenderer.cs:147-164 | all 1+2s triangles have the same, clockwise winding and none is degenerate |
| MeshCache.GetGrassMeshCacheAsWritten | Assets/InfiniteGrass/Scripts/InfiniteGrassRenderer.cs:125-171 | a hit returns the cached mesh unchanged. A build for s >= 0 caches the blade under s. A build for s < 0 throws and leaves an empty mesh cached under the old subdivision |
| MeshCache.GetGrassMeshCacheCorrected | Assets/InfiniteGrass/Scripts/InfiniteGrassRenderer.cs:125-171 | corrected: the source's hit and build branches, but a throwing build leaves the cache as it was. It rebuilds exactly on a missing mesh or a changed subdivision. A returned mesh is cached under s. Coherence is preserved, and from a coherent cache the result is the blade for s or a throw for s < 0 |
| MeshCache.AsWrittenServesEmptyMesh | Assets/InfiniteGrass/Scripts/InfiniteGrassRenderer.cs:127-134 | as written, s, then a negative subdivision, then s again gives a cache hit that returns an empty mesh instead of the blade |
| MeshCache.AsWrittenEmptyMeshAtMinusOne | Assets/InfiniteGrass/Scripts/InfiniteGrassRenderer.cs:32 | as written, two calls with subdivision -1 from the initial fields: the first throws, the second returns the empty mesh without throwing |
| MeshCache.CorrectedRecoversAfterFailure | Assets/InfiniteGrass/Scripts/InfiniteGrassRenderer.cs:127-169 | the corrected cache, in the same scenario, returns the first mesh again without rebuilding |
| MeshCache.LookupWith | Assets/InfiniteGrass/Scripts/InfiniteGrassRenderer.cs:125-171 | either version hits exactly when a mesh is cached for s, throws exactly on a miss with s < 0, and equals the corrected cache for s >= 0. On a throw the source's version leaves an empty mesh under the old subdivision, and the corrected one leaves the cache as it was |
| MeshCache.VersionsAgreeOnValidSubdivision | Assets/InfiniteGrass/Scripts/InfiniteGrassRenderer.cs:125-171 | the two versions agree on every call with a non-negative subdivision |
| MeshCache.CorrectedAlwaysReturnsBlade | Assets/InfiniteGrass/Scripts/InfiniteGrassRenderer.cs:125-171 | over any sequence of calls from a coherent cache, each call returns exactly the blade of its subdivision, or throws when that is negative |
| MeshCache.CorrectedFromStartup | Assets/InfiniteGrass/Scripts/InfiniteGrassRenderer.cs:32 | from the initial fields (no mesh, `oldSubdivision = -1`), every call of the corrected cache returns the blade of its subdivision or throws when that is negative |
| MeshCache.AtMostOneRebuild | Assets/InfiniteGrass/Scripts/InfiniteGrassRenderer.cs:127 | a second call with the same valid subdivision is a hit that returns the same mesh |
| MeshCache.ChangeTriggersRebuild | Assets/InfiniteGrass/Scripts/InfiniteGrassRenderer.cs:127 | after a build, any different subdivision rebuilds |
| InfiniteGrassRenderer.InstanceCapacity | Assets/InfiniteGrass/Scripts/InfiniteGrassRenderer.cs:111 | for a non-negative setting, the capacity is maxBufferCount millions truncated to a whole number |
| InfiniteGrassRenderer.ArgsOfBlade | Assets/InfiniteGrass/Scripts/InfiniteGrassRenderer.cs:109-114 | the record of the blade is [3(1+2s), capacity, 0, 0, 0], and its first entry is the mesh's index count |
| InfiniteGrassRenderer.ReleaseBuffers | Assets/InfiniteGrass/Scripts/InfiniteGrassRenderer.cs:90-94 | no buffer is live afterwards; each buffer is released exactly when it was ever assigned (the `?.` skips a null field); the cache is untouched |
| InfiniteGrassRenderer.ReleaseTwice | Assets/InfiniteGrass/Scripts/InfiniteGrassRenderer.cs:90-94 | releasing again changes no buffer state: a released field stays released and a null field stays null |
| InfiniteGrassRenderer.InitializeBuffers | Assets/InfiniteGrass/Scripts/InfiniteGrassRenderer.cs:104-116 | both buffers are created first. It throws exactly when s < 0 and no mesh is cached for s; otherwise the record is set and, from a coherent cache, holds the blade's values. On a throw the source's cache is left holding an empty mesh and the corrected one is unchanged. It rebuilds at most once, and keeps the cache coherent unless the source's version throws |
| InfiniteGrassRenderer.LateUpdate | Assets/InfiniteGrass/Scripts/InfiniteGrassRenderer.cs:40-53 | every frame starts with the releases, rebuilds the mesh at most once, and keeps the cache coherent for the corrected version or a valid subdivision |
| InfiniteGrassRenderer.SkippedFrame | Assets/InfiniteGrass/Scripts/InfiniteGrassRenderer.cs:42-44 | a frame is skipped (only releases, no live buffer, cache untouched) if and only if spacing is 0 or the material is missing |
| InfiniteGrassRenderer.CompletedFrameShape | Assets/InfiniteGrass/Scripts/InfiniteGrassRenderer.cs:46-52 | a frame that gets past initialisation issues releases, buffer set-up, material parameters, then the draw of the cached mesh over the renderer's bounds |
| InfiniteGrassRenderer.InitializedWithBlade | Assets/InfiniteGrass/Scripts/InfiniteGrassRenderer.cs:104-116 | with a coherent cache and a valid subdivision, initialisation succeeds with the blade cached and the blade's record set |
| InfiniteGrassRenderer.DrawnFrame | Assets/InfiniteGrass/Scripts/InfiniteGrassRenderer.cs:40-53 | a rendered frame draws exactly once, the blade of the current subdivision, over the bounds the data pass computes, with the blade's record live |
| InfiniteGrassRenderer.ThrowingFrame | Assets/InfiniteGrass/Scripts/InfiniteGrassRenderer.cs:104-134 | from a coherent cache, a negative subdivision ends the frame after both buffers are created: no record and no draw. The source's cache is left holding an empty mesh under the old subdivision; the corrected cache is unchanged |
| InfiniteGrassRenderer.AsWrittenFrameDrawsEmptyMesh | Assets/InfiniteGrass/Scripts/InfiniteGrassRenderer.cs:32-52 | as written, subdivision -1 from the initial state: the first frame throws, and the second sets the record [0, capacity, 0, 0, 0] and draws the empty mesh |
| InfiniteGrassRenderer.CorrectedFrameThrowsAgain | Assets/InfiniteGrass/Scripts/InfiniteGrassRenderer.cs:32-52 | with the corrected cache, the same two frames both throw and neither draws |
| InfiniteGrassRenderer.ConsecutiveFramesRebuildOnce | Assets/InfiniteGrass/Scripts/InfiniteGrassRenderer.cs:52 | two frames with the same valid settings rebuild the mesh at most once between them |
| GrassGrid.GridSize | Assets/InfiniteGrass/Scripts/GrassDataPass.cs:133 | for positive spacing, the cell count is the least number of cells whose total width reaches the extent |
| GrassGrid.GridStart | Assets/InfiniteGrass/Scripts/GrassDataPass.cs:134 | for positive spacing, the start cell is the cell that holds the bounds' minimum |
| GrassGrid.DispatchGroups | Assets/InfiniteGrass/Scripts/GrassDataPass.cs:156 | the group count is the least number of 8-wide groups covering n cells |
| GrassGrid.DispatchGroupsIntegerForm | Assets/InfiniteGrass/Scripts/GrassDataPass.cs:156 | the float ceiling equals the integer division (n + 7) / 8, negative n included |
| GrassGrid.DispatchGroupsTight | Assets/InfiniteGrass/Scripts/GrassDataPass.cs:156 | an empty grid dispatches no group, and fewer than 8 threads per row are idle |
| GrassGrid.GridCoverage | Assets/InfiniteGrass/Scripts/GrassDataPass.cs:133-134 | on x and z, the grid starts at or below the bounds' minimum and ends within one spacing of the maximum |
| GrassDataPass.AppendCapacity | Assets/InfiniteGrass/Scripts/GrassDataPass.cs:137 | the append buffer's capacity equals the renderer's instance capacity, although the factors are multiplied in the other order |
| GrassDataPass.Execute | Assets/InfiniteGrass/Scripts/GrassDataPass.cs:136-137 | a pass with all components always leaves a position buffer assigned, so the next frame's release applies to it |
| GrassDataPass.ExecuteGuard | Assets/InfiniteGrass/Scripts/GrassDataPass.cs:54 | the pass issues no command at all, and keeps its state, if and only if a component is missing |
| GrassDataPass.CounterCommandOrder | Assets/InfiniteGrass/Scripts/GrassDataPass.cs:154-164 | the counter commands are, in order: reset, one dispatch of ceil(size/8) groups per axis, copy to byte 4 of the record, and a copy to the debug buffer exactly when the preview is on |
| GrassDataPass.ResetDispatchCopyOrder | Assets/InfiniteGrass/Scripts/GrassDataPass.cs:154-159 | the counter reset precedes the dispatch, which precedes the copy into the record |
| GrassDataPass.DebugFlagOnlyAppends | Assets/InfiniteGrass/Scripts/GrassDataPass.cs:161-164 | turning the preview on only appends the debug copy; every other command is unchanged |
| GrassDataPass.CapacityMatchesArgs | Assets/InfiniteGrass/Scripts/GrassDataPass.cs:136-137 | the append buffer is created with as many 12-byte slots as the renderer's initial instance count |
| GrassDataPass.GridCoversFrustum | Assets/InfiniteGrass/Scripts/GrassDataPass.cs:133-134 | with spacing at most the half-unit margin, the grid's cells cover every frustum corner on x and z |
| GrassDataPass.ExecuteFeedsDrawCount | Assets/InfiniteGrass/Scripts/GrassDataPass.cs:154-164 | after the pass, the record's instance count is exactly the number of positions emitted and no other slot changes. The debug slot gets the same count exactly when the preview is on |
| GrassDataPass.FrameFeedsIndirectDraw | Assets/InfiniteGrass/Scripts/GrassDataPass.cs:159 | renderer frame then pass: the record the draw reads is [3(1+2s), emitted, 0, 0, 0] |

## Left out

- Engine and GPU calls are reduced to what they do to the modelled state: rendering the height map and data textures, view/projection matrices, `SetupMaterial`'s material writes, and binding textures. The compute shader's culling and placement rules are not modelled; its output is the input `emitted`.
- Append-buffer overflow is not modelled: excess appends are dropped, and the counter's value past capacity is not modelled. `emitted` is any natural number, so the instance count copied into the record may exceed the capacity.
- `OnGUI` is not modelled: it is a debug readback and label, and it has no effect on the draw.
- `OnEnable`, `OnDisable`, `Start` and `Dispose` are lifecycle hooks outside the per-frame core.
- `OnCameraSetup` (render-texture allocation) and `GrassDataRendererFeature.cs` are not part of this model.
- `Camera.main` (the pass) and `mainCamera` (the renderer) are assumed to be the same camera, given as one `CameraView`. The frustum corners of `ViewportToWorldPoint` are inputs.
- IEEE single-precision rounding is not modelled; floats are exact reals.
- InfiniteGrassRenderer.InstanceCapacity: does not model the range of `(uint)` and `(int)`. A negative or very large `maxBufferCount` truncates the same way in the model, and the wrap-around or engine error of the real casts is not represented.
- InfiniteGrassRenderer.LateUpdate: requires a non-zero threshold on frames that are not skipped. A zero threshold divides by zero in IEEE arithmetic, giving infinity or NaN, which real numbers cannot represent.
- GrassDataPass.Execute: requires a non-zero spacing and threshold when the components are set, for the same reason. The pass has no guard of its own against spacing 0.
- CenterPosition.Snap: requires a non-zero threshold, for the same reason. So does `CenterPosition.CalculateCenterPosition`.
- GrassGrid.GridSize: requires a non-zero spacing, for the same reason. So do `GrassGrid.GridStart` and `GrassGrid.GridFor`.
- A newly created `ComputeBuffer` is taken to be zero-filled.
- The counter value of a newly created append buffer is not specified; the model only relies on the explicit reset.
- InfiniteGrassRenderer.AsWrittenFrameDrawsEmptyMesh: takes the index count of a fresh `Mesh` to be 0. What the engine then draws for an empty mesh is not modelled.
- BladeMesh.BuildBladeMesh: does not model C#'s 32-bit `int` arithmetic at InfiniteGrassRenderer.cs:130-131 and 156-161. The four products wrap at different points. `3 + 4 * s` and the tip's vertex index `s * 4` stay in range exactly for -2^29 <= s < 2^29. The index count `(1 + 2 * s) * 3` leaves the range from s = 357913941 upward and for s <= -357913942, and the tip's index offset `s * 6` from s = 357913942 upward and for s <= -357913942. So for 357913941 <= s < 2^29 the index count wraps negative (s = 400000000 gives -1894967293) and `new int[triangleCount]` at line 134 throws where the model builds the blade. For -2^29 <= s < 0 the source still throws, at line 133, because the vertex count is negative before the index count is used; the model throws there too. Below -2^29 the vertex count wraps as well, and just above `int.MinValue` both counts come out small and positive (s = int.MinValue + 1 gives 7 vertices and 9 indices), so the source builds a small mesh and caches it under a negative subdivision without throwing; the model throws for every s < 0. Unity's default 16-bit mesh index format holds at most 65535 vertices, so for s >= 16384 the source cannot set the blade's vertices and triangles as built. Allocation failure for very large arrays is not modelled. The model builds the blade for every s >= 0; it agrees with the source only for 0 <= s < 357913941, and with the 16-bit index format only for 0 <= s < 16384.
- MeshCache.GetGrassMeshCacheAsWritten: its throw for s < 0 is the source's behaviour only for -2^29 <= s < 0, where line 133 allocates the vertex array with a negative count; below -2^29 the source may build a mesh instead, as the BladeMesh.BuildBladeMesh line explains. Its blade for s >= 0 is the source's result only for s < 357913941, where the index count `(1 + 2 * s) * 3` still fits in an `int`.
- MeshCache.GetGrassMeshCacheCorrected: its throw for s < 0 is the source's behaviour only for -2^29 <= s < 0, where line 133 allocates the vertex array with a negative count; below -2^29 the source may build a mesh instead, as the BladeMesh.BuildBladeMesh line explains. Its blade for s >= 0 is the source's result only for s < 357913941, where the index count `(1 + 2 * s) * 3` still fits in an `int`.
- MeshCache.LookupWith: its throw for s < 0 is the source's behaviour only for -2^29 <= s < 0, where line 133 allocates the vertex array with a negative count; below -2^29 the source may build a mesh instead, as the BladeMesh.BuildBladeMesh line explains. Its blade for s >= 0 is the source's result only for s < 357913941, where the index count `(1 + 2 * s) * 3` still fits in an `int`.
- InfiniteGrassRenderer.InitializeBuffers: its throw for s < 0 is the source's behaviour only for -2^29 <= s < 0, where line 133 allocates the vertex array with a negative count; below -2^29 the source may build a mesh instead, as the BladeMesh.BuildBladeMesh line explains. Its blade for s >= 0 is the source's result only for s < 357913941, where the index count `(1 + 2 * s) * 3` still fits in an `int`.
- InfiniteGrassRenderer.ThrowingFrame: its throw for s < 0 is the source's behaviour only for -2^29 <= s < 0, where line 133 allocates the vertex array with a negative count; below -2^29 the source may build a mesh instead, as the BladeMesh.BuildBladeMesh line explains.
- GrassDataPass.ExecuteFeedsDrawCount: assumes the copy target is a live five-slot record. The renderer's `ArgsBuffer` is null before its first completed frame. It is released on every frame the renderer skips, for example a missing material (`SkippedFrame`). `ValidateComponents` checks neither case. What `CopyCounterValue` does with a null or released buffer is engine behaviour and is not modelled.
- GrassDataPass.Execute: does not model the failure of `new ComputeBuffer` when the append buffer's count `(int)(1000000 * maxBufferCount)` is zero or negative. `CreatePositions` records the count as given.
- GrassGrid.GridCoverage: the grid can stop short of the bounds' maximum by less than one spacing. The lemma states that bound rather than full coverage. Full coverage of the frustum corners is proved for spacing up to the margin (`GrassDataPass.GridCoversFrustum`).
- The cast of `gridStartIndex` and `gridSize` to `Vector2` for the shader is modelled as handing over the integers unchanged.

## Findings

| source | as written | input that shows it | evidently intended | confidence | as-written member | corrected member |
|---|---|---|---|---|---|---|
| Assets/InfiniteGrass/Scripts/InfiniteGrassRenderer.cs:129-134 | on a cache miss, `cachedGrassMesh = new Mesh()` runs before `new Vector3[3 + 4 * grassMeshSubdivision]`, which throws for every subdivision in [-2^29, 0). `oldSubdivision` keeps its old value, so an empty mesh stays cached under it | subdivision 5, then -1, then 5: the third call is a cache hit returning an empty mesh. Or -1 twice from the start (`oldSubdivision` starts at -1): the second call returns the empty mesh without throwing | a failed build leaves the cache as it was | not executed | MeshCache.AsWrittenServesEmptyMesh | MeshCache.CorrectedRecoversAfterFailure |

=== FILE: BladeMesh.dfy ===
/**
 The grass blade mesh (`GetGrassMeshCache`'s construction): for a subdivision
 count `s`, `s` quads stacked from height 0 upward, each 0.5 wide, and one tip
 triangle up to the apex (0, 1). Vertices lie in the plane z = 0.

 `Blade` describes the mesh as a stack of quads plus a tip; `BuildBladeMesh`
 is the source's array-filling loop, proved to produce exactly `Blade(s)` and
 to write every array slot once.
 */
module BladeMesh {
  import opened Options
  import opened Geometry

  /** Half the blade's width: quad and tip corners sit at x = -0.25 and x = 0.25. */
  const HalfWidth: real := 0.25

  /** A mesh with one submesh: vertex positions and a flat triangle-index list. */
  datatype Mesh = Mesh(vertices: seq<Vec3>, triangles: seq<int>)

  /** The mesh a plain `new Mesh()` holds before any data is set. */
  const EmptyMesh: Mesh := Mesh([], [])

  /** The height of the `level`-th horizontal edge: the blade is cut into `s + 1` equal bands. */
  function Height(s: nat, level: nat): real
  {
    level as real / (s + 1) as real
  }

  /** Quad `i`'s bottom-left, bottom-right, top-left and top-right corners. */
  function QuadVertices(s: nat, i: nat): seq<Vec3>
  {
    [Vec3(-HalfWidth, Height(s, i), 0.0), Vec3(HalfWidth, Height(s, i), 0.0),
     Vec3(-HalfWidth, Height(s, i + 1), 0.0), Vec3(HalfWidth, Height(s, i + 1), 0.0)]
  }

  /** Quad `i`'s two triangles, over its own four vertices `4i .. 4i+3`. */
  function QuadIndices(i: nat): seq<int>
  {
    [4 * i, 4 * i + 3, 4 * i + 1, 4 * i, 4 * i + 2, 4 * i + 3]
  }

  /** The vertices of the first `n` quads, bottom to top. */
  function StackVertices(s: nat, n: nat): (vs: seq<Vec3>)
    ensures |vs| == 4 * n
  {
    if n == 0 then [] else StackVertices(s, n - 1) + QuadVertices(s, n - 1)
  }

  /** The indices of the first `n` quads. */
  function StackIndices(n: nat): (ts: seq<int>)
    ensures |ts| == 6 * n
  {
    if n == 0 then [] else StackIndices(n - 1) + QuadIndices(n - 1)
  }

  /** The tip's left base, apex and right base. */
  function TipVertices(s: nat): seq<Vec3>
  {
    [Vec3(-HalfWidth, Height(s, s), 0.0), Vec3(0.0, 1.0, 0.0), Vec3(HalfWidth, Height(s, s), 0.0)]
  }

  /** The tip triangle, over the three vertices after the quads. */
  function TipIndices(s: nat): seq<int>
  {
    [4 * s, 4 * s + 1, 4 * s + 2]
  }

  /** The blade mesh for subdivision count `s`. */
  function Blade(s: nat): Mesh
  {
    Mesh(StackVertices(s, s) + TipVertices(s), StackIndices(s) + TipIndices(s))
  }

  /** Quad `i` of a stack of `n` occupies vertex slots `4i .. 4i+3` and index slots `6i .. 6i+5`. */
  lemma StackSlices(s: nat, n: nat, i: nat)
    requires i < n
    ensures StackVertices(s, n)[4 * i .. 4 * i + 4] == QuadVertices(s, i)
    ensures StackIndices(n)[6 * i .. 6 * i + 6] == QuadIndices(i)
  {
    StackVertexSlice(s, n, i);
    StackIndexSlice(n, i);
  }

  /** The vertex half of `StackSlices`. */
  lemma {:induction false} StackVertexSlice(s: nat, n: nat, i: nat)
    requires i < n
    ensures StackVertices(s, n)[4 * i .. 4 * i + 4] == QuadVertices(s, i)
  {
    var vs := StackVertices(s, n - 1);
    assert StackVertices(s, n) == vs + QuadVertices(s, n - 1);
    if i < n - 1 {
      StackVertexSlice(s, n - 1, i);
      assert (vs + QuadVertices(s, n - 1))[4 * i .. 4 * i + 4] == vs[4 * i .. 4 * i + 4];
    } else {
      assert i == n - 1;
      assert (vs + QuadVertices(s, i))[4 * i .. 4 * i + 4] == QuadVertices(s, i);
    }
  }

  /** The index half of `StackSlices`. */
  lemma {:induction false} StackIndexSlice(n: nat, i: nat)
    requires i < n
    ensures StackIndices(n)[6 * i .. 6 * i + 6] == QuadIndices(i)
  {
    var ts := StackIndices(n - 1);
    assert StackIndices(n) == ts + QuadIndices(n - 1);
    if i < n - 1 {
      StackIndexSlice(n - 1, i);
      assert (ts + QuadIndices(n - 1))[6 * i .. 6 * i + 6] == ts[6 * i .. 6 * i + 6];
    } else {
      assert i == n - 1;
      assert (ts + QuadIndices(i))[6 * i .. 6 * i + 6] == QuadIndices(i);
    }
  }

  /** The first `n` quads use only the first `4n` vertices. */
  lemma {:induction false} StackIndicesInRange(n: nat)
    ensures forall k :: 0 <= k < 6 * n ==> 0 <= StackIndices(n)[k] < 4 * n
  {
    if n > 0 {
      StackIndicesInRange(n - 1);
      var ts := StackIndices(n);
      forall k | 0 <= k < 6 * n
        ensures 0 <= ts[k] < 4 * n
      {
        if k < 6 * (n - 1) {
          assert ts[k] == StackIndices(n - 1)[k];
        } else {
          assert ts[k] == QuadIndices(n - 1)[k - 6 * (n - 1)];
        }
      }
    }
  }

  /** Records one more write to each slot in `[lo, hi)` of a write-count ledger. */
  ghost function WroteRange(w: seq<nat>, lo: int, hi: int): (w': seq<nat>)
    requires 0 <= lo <= hi <= |w|
    ensures |w'| == |w|
    ensures forall k :: 0 <= k < |w| ==> w'[k] == if lo <= k < hi then w[k] + 1 else w[k]
  {
    seq(|w|, k requires 0 <= k < |w| => if lo <= k < hi then w[k] + 1 else w[k])
  }

  /** The ledger of a fill that has written slots `[0, done)` of `n` once each and nothing else. */
  ghost function Ledger(n: nat, done: nat): (w: seq<nat>)
    ensures |w| == n
    ensures forall k :: 0 <= k < n ==> w[k] == if k < done then 1 else 0
  {
    seq(n, k requires 0 <= k < n => if k < done then 1 else 0)
  }

  /** Writing the next block of slots once extends the ledger over that block. */
  lemma LedgerAdvance(n: nat, done: nat, next: nat)
    requires done <= next <= n
    ensures WroteRange(Ledger(n, done), done, next) == Ledger(n, next)
  {
  }

  /**
   One array write, counted in the write ledger of that array. Every write
   of the fill goes through here, so the ledger counts the writes as they
   happen.
   */
  method Store<T>(a: array<T>, k: int, x: T, ghost w: seq<nat>) returns (ghost w': seq<nat>)
    requires 0 <= k < a.Length && |w| == a.Length
    modifies a
    ensures a[..] == old(a[..])[k := x]
    ensures w' == w[k := w[k] + 1]
  {
    a[k] := x;
    w' := w[k := w[k] + 1];
  }

  /** Writing quad `i` after the first `i` quads gives the first `i + 1`. */
  lemma StackGrows(vs: seq<Vec3>, ts: seq<int>, s: nat, i: nat)
    requires 4 * i + 4 <= |vs| && 6 * i + 6 <= |ts|
    requires vs[..4 * i] == StackVertices(s, i) && vs[4 * i .. 4 * i + 4] == QuadVertices(s, i)
    requires ts[..6 * i] == StackIndices(i) && ts[6 * i .. 6 * i + 6] == QuadIndices(i)
    ensures vs[..4 * i + 4] == StackVertices(s, i + 1) && ts[..6 * i + 6] == StackIndices(i + 1)
  {
    assert vs[..4 * i + 4] == vs[..4 * i] + vs[4 * i .. 4 * i + 4];
    assert ts[..6 * i + 6] == ts[..6 * i] + ts[6 * i .. 6 * i + 6];
  }

  /** One iteration of the source loop: the four corners and six indices of quad `i`. */
  method WriteQuad(vertices: array<Vec3>, triangles: array<int>, s: nat, i: nat, ghost vw: seq<nat>, ghost tw: seq<nat>)
    returns (ghost vw': seq<nat>, ghost tw': seq<nat>)
    requires vertices != triangles as object
    requires 4 * i + 4 <= vertices.Length && 6 * i + 6 <= triangles.Length
    requires |vw| == vertices.Length && |tw| == triangles.Length
    modifies vertices, triangles
    ensures vertices[..4 * i] == old(vertices[..4 * i])
    ensures triangles[..6 * i] == old(triangles[..6 * i])
    ensures vertices[4 * i .. 4 * i + 4] == QuadVertices(s, i)
    ensures triangles[6 * i .. 6 * i + 6] == QuadIndices(i)
    ensures vw' == WroteRange(vw, 4 * i, 4 * i + 4) && tw' == WroteRange(tw, 6 * i, 6 * i + 6)
  {
    vw' := WriteQuadVertices(vertices, s, i, vw);
    tw' := WriteQuadIndices(triangles, i, tw);
  }

  /** The vertex half of a loop iteration: bottom edge at `i / (s + 1)`, top edge at `(i + 1) / (s + 1)`. */
  method WriteQuadVertices(vertices: array<Vec3>, s: nat, i: nat, ghost w: seq<nat>) returns (ghost w': seq<nat>)
    requires 4 * i + 4 <= vertices.Length && |w| == vertices.Length
    modifies vertices
    ensures vertices[..4 * i] == old(vertices[..4 * i])
    ensures vertices[4 * i .. 4 * i + 4] == QuadVertices(s, i)
    ensures w' == WroteRange(w, 4 * i, 4 * i + 4)
  {
    var y1 := i as real / (s + 1) as real;
    var y2 := (i + 1) as real / (s + 1) as real;

    var baseIndex := i * 4;
    w' := Store(vertices, baseIndex, Vec3(-HalfWidth, y1, 0.0), w);
    w' := Store(vertices, baseIndex + 1, Vec3(HalfWidth, y1, 0.0), w');
    w' := Store(vertices, baseIndex + 2, Vec3(-HalfWidth, y2, 0.0), w');
    w' := Store(vertices, baseIndex + 3, Vec3(HalfWidth, y2, 0.0), w');
  }

  /** The index half of a loop iteration: two triangles over the quad's own vertices. */
  method WriteQuadIndices(triangles: array<int>, i: nat, ghost w: seq<nat>) returns (ghost w': seq<nat>)
    requires 6 * i + 6 <= triangles.Length && |w| == triangles.Length
    modifies triangles
    ensures triangles[..6 * i] == old(triangles[..6 * i])
    ensures triangles[6 * i .. 6 * i + 6] == QuadIndices(i)
    ensures w' == WroteRange(w, 6 * i, 6 * i + 6)
  {
    var baseIndex := i * 4;
    var triBaseIndex := i * 6;
    w' := Store(triangles, triBaseIndex, baseIndex, w);
    w' := Store(triangles, triBaseIndex + 1, baseIndex + 3, w');
    w' := Store(triangles, triBaseIndex + 2, baseIndex + 1, w');
    w' := Store(triangles, triBaseIndex + 3, baseIndex, w');
    w' := Store(triangles, triBaseIndex + 4, baseIndex + 2, w');
    w' := Store(triangles, triBaseIndex + 5, baseIndex + 3, w');
  }

  /** The code after the loop: the tip's three vertices and its one triangle. */
  method WriteTip(vertices: array<Vec3>, triangles: array<int>, s: nat, ghost vw: seq<nat>, ghost tw: seq<nat>)
    returns (ghost vw': seq<nat>, ghost tw': seq<nat>)
    requires vertices != triangles as object
    requires vertices.Length == 4 * s + 3 && triangles.Length == 6 * s + 3
    requires |vw| == vertices.Length && |tw| == triangles.Length
    modifies vertices, triangles
    ensures vertices[..4 * s] == old(vertices[..4 * s])
    ensures triangles[..6 * s] == old(triangles[..6 * s])
    ensures vertices[4 * s ..] == TipVertices(s)
    ensures triangles[6 * s ..] == TipIndices(s)
    ensures vw' == WroteRange(vw, 4 * s, 4 * s + 3) && tw' == WroteRange(tw, 6 * s, 6 * s + 3)
  {
    var topVertexIndex := s * 4;
    vw' := Store(vertices, topVertexIndex, Vec3(-HalfWidth, s as real / (s + 1) as real, 0.0), vw);
    vw' := Store(vertices, topVertexIndex + 1, Vec3(0.0, 1.0, 0.0), vw');
    vw' := Store(vertices, topVertexIndex + 2, Vec3(HalfWidth, s as real / (s + 1) as real, 0.0), vw');

    var topTriBaseIndex := s * 6;
    tw' := Store(triangles, topTriBaseIndex, topVertexIndex, tw);
    tw' := Store(triangles, topTriBaseIndex + 1, topVertexIndex + 1, tw');
    tw' := Store(triangles, topTriBaseIndex + 2, topVertexIndex + 2, tw');
  }

  /** The loop of `GetGrassMeshCache`: quads `0 .. s-1`, bottom to top, each slot written once. */
  method FillQuads(vertices: array<Vec3>, triangles: array<int>, s: nat) returns (ghost vertexWrites: seq<nat>, ghost indexWrites: seq<nat>)
    requires vertices != triangles as object
    requires vertices.Length == 4 * s + 3 && triangles.Length == 6 * s + 3
    modifies vertices, triangles
    ensures vertices[..4 * s] == StackVertices(s, s) && triangles[..6 * s] == StackIndices(s)
    ensures vertexWrites == Ledger(vertices.Length, 4 * s)
    ensures indexWrites == Ledger(triangles.Length, 6 * s)
  {
    vertexWrites := Ledger(vertices.Length, 0);
    indexWrites := Ledger(triangles.Length, 0);
    var i := 0;
    while i < s
      invariant 0 <= i <= s
      invariant vertices[..4 * i] == StackVertices(s, i)
      invariant triangles[..6 * i] == StackIndices(i)
      invariant vertexWrites == Ledger(vertices.Length, 4 * i)
      invariant indexWrites == Ledger(triangles.Length, 6 * i)
    {
      vertexWrites, indexWrites := WriteQuad(vertices, triangles, s, i, vertexWrites, indexWrites);
      StackGrows(vertices[..], triangles[..], s, i);
      LedgerAdvance(vertices.Length, 4 * i, 4 * i + 4);
      LedgerAdvance(triangles.Length, 6 * i, 6 * i + 6);
      i := i + 1;
    }
  }

  /**
   The loop of `GetGrassMeshCache` and the tip writes after it, on freshly
   allocated arrays of `3 + 4s` vertices and `(1 + 2s) * 3` indices. The ghost
   ledgers count the writes to each slot.
   */
  method FillBlade(s: nat) returns (vertices: array<Vec3>, triangles: array<int>, ghost vertexWrites: seq<nat>, ghost indexWrites: seq<nat>)
    ensures fresh(vertices) && fresh(triangles)
    ensures vertices[..] == Blade(s).vertices && triangles[..] == Blade(s).triangles
    ensures vertexWrites == Ledger(vertices.Length, vertices.Length)
    ensures indexWrites == Ledger(triangles.Length, triangles.Length)
  {
    var vertexCount := 3 + 4 * s;
    var triangleCount := (1 + 2 * s) * 3;
    vertices := new Vec3[vertexCount](_ => Vec3(0.0, 0.0, 0.0));
    triangles := new int[triangleCount](_ => 0);
    vertexWrites, indexWrites := FillQuads(vertices, triangles, s);

    vertexWrites, indexWrites := WriteTip(vertices, triangles, s, vertexWrites, indexWrites);
    assert vertices[..] == vertices[..4 * s] + vertices[4 * s ..];
    assert triangles[..] == triangles[..6 * s] + triangles[6 * s ..];
    LedgerAdvance(vertexCount, 4 * s, 4 * s + 3);
    LedgerAdvance(triangleCount, 6 * s, 6 * s + 3);
  }

  /**
   The construction in `GetGrassMeshCache`: a negative `s` makes the array
   allocation throw, modelled as `None`; otherwise the filled arrays are the
   blade, every slot written exactly once. Sizes are unbounded integers here:
   the 32-bit wrap-around of the source's size arithmetic is not modelled.
   The index count `(1 + 2 * s) * 3` wraps from s = 357913941 up and from
   -357913942 down, the vertex count `3 + 4 * s` from 2^29 up and below -2^29.
   */
  method BuildBladeMesh(s: int) returns (r: Option<Mesh>, ghost vertexWrites: seq<nat>, ghost indexWrites: seq<nat>)
    ensures r.None? <==> s < 0
    ensures r.Some? ==> |r.value.vertices| == 3 + 4 * s && |r.value.triangles| == 3 * (1 + 2 * s)
    ensures r.Some? ==> r.value == Blade(s)
    ensures r.Some? ==> |vertexWrites| == |r.value.vertices| && |indexWrites| == |r.value.triangles|
    ensures forall k :: 0 <= k < |vertexWrites| ==> vertexWrites[k] == 1
    ensures forall k :: 0 <= k < |indexWrites| ==> indexWrites[k] == 1
  {
    if s < 0 {
      return None, [], [];
    }
    var vertices, triangles;
    vertices, triangles, vertexWrites, indexWrites := FillBlade(s);
    r := Some(Mesh(vertices[..], triangles[..]));
  }

  /** Heights grow with the level, are 0 at the bottom and 1 at level `s + 1`. */
  lemma HeightFacts(s: nat, level: nat)
    requires level <= s + 1
    ensures 0.0 <= Height(s, level) <= 1.0
    ensures level == 0 ==> Height(s, level) == 0.0
    ensures level == s + 1 ==> Height(s, level) == 1.0
    ensures level <= s ==> Height(s, level) < Height(s, level + 1)
  {
    var d := (s + 1) as real;
    assert Height(s, level) * d == level as real;
    assert Height(s, level + 1) * d == (level + 1) as real;
    assert Height(s, level + 1) - Height(s, level) == 1.0 / d;
  }

  /** Quad `i` of the blade: its four vertices and its six indices, slot by slot. */
  lemma QuadOfBlade(s: nat, i: nat)
    requires i < s
    ensures Blade(s).vertices[4 * i .. 4 * i + 4] == QuadVertices(s, i)
    ensures Blade(s).triangles[6 * i .. 6 * i + 6] == QuadIndices(i)
  {
    StackSlices(s, s, i);
    assert Blade(s).vertices[..4 * s] == StackVertices(s, s);
    assert Blade(s).triangles[..6 * s] == StackIndices(s);
  }

  /** The tip of the blade: its three vertices and its three indices come last. */
  lemma TipOfBlade(s: nat)
    ensures Blade(s).vertices[4 * s ..] == TipVertices(s)
    ensures Blade(s).triangles[6 * s ..] == TipIndices(s)
  {
  }

  /** The mesh has `3 + 4s` vertices and `3(1 + 2s)` indices, and every index names one of its vertices. */
  lemma BladeCounts(s: nat)
    ensures |Blade(s).vertices| == 3 + 4 * s
    ensures |Blade(s).triangles| == 3 * (1 + 2 * s)
    ensures IndicesValid(Blade(s))
  {
    var t := Blade(s).triangles;
    StackIndicesInRange(s);
    forall k | 0 <= k < |t|
      ensures 0 <= t[k] < |Blade(s).vertices|
    {
      if k >= 6 * s {
        assert t[k] == TipIndices(s)[k - 6 * s];
      } else {
        assert t[k] == StackIndices(s)[k];
      }
    }
  }

  /** Quad `i` is the two triangles (4i, 4i+3, 4i+1) and (4i, 4i+2, 4i+3): it uses only its own four vertices. */
  lemma QuadTriangles(s: nat, i: nat)
    requires i < s
    ensures Blade(s).triangles[6 * i .. 6 * i + 6] == [4 * i, 4 * i + 3, 4 * i + 1, 4 * i, 4 * i + 2, 4 * i + 3]
    ensures forall k :: 6 * i <= k < 6 * i + 6 ==> 4 * i <= Blade(s).triangles[k] < 4 * i + 4
  {
    QuadOfBlade(s, i);
    forall k | 6 * i <= k < 6 * i + 6
      ensures 4 * i <= Blade(s).triangles[k] < 4 * i + 4
    {
      assert Blade(s).triangles[k] == QuadIndices(i)[k - 6 * i];
    }
  }

  /** Quad `i` spans heights i/(s+1) to (i+1)/(s+1), between x = -0.25 and x = 0.25. */
  lemma QuadGeometry(s: nat, i: nat)
    requires i < s
    ensures Blade(s).vertices[4 * i .. 4 * i + 4] ==
      [Vec3(-0.25, i as real / (s + 1) as real, 0.0), Vec3(0.25, i as real / (s + 1) as real, 0.0),
       Vec3(-0.25, (i + 1) as real / (s + 1) as real, 0.0), Vec3(0.25, (i + 1) as real / (s + 1) as real, 0.0)]
  {
    QuadOfBlade(s, i);
  }

  /** The tip is the triangle (4s, 4s+1, 4s+2): left base and right base at s/(s+1), apex (0, 1). */
  lemma TipTriangle(s: nat)
    ensures Blade(s).triangles[6 * s ..] == [4 * s, 4 * s + 1, 4 * s + 2]
    ensures Blade(s).vertices[4 * s ..] ==
      [Vec3(-0.25, s as real / (s + 1) as real, 0.0), Vec3(0.0, 1.0, 0.0), Vec3(0.25, s as real / (s + 1) as real, 0.0)]
  {
    TipOfBlade(s);
  }

  /** With no subdivision the blade is a single triangle. */
  lemma SingleTriangleWithoutSubdivision()
    ensures Blade(0) == Mesh([Vec3(-0.25, 0.0, 0.0), Vec3(0.0, 1.0, 0.0), Vec3(0.25, 0.0, 0.0)], [0, 1, 2])
  {
    assert StackVertices(0, 0) == [];
  }

  /** The `k`-th vertex of quad `i`. */
  lemma QuadVertexAt(s: nat, i: nat, k: nat)
    requires i < s && k < 4
    ensures Blade(s).vertices[4 * i + k] == QuadVertices(s, i)[k]
  {
    QuadOfBlade(s, i);
    assert Blade(s).vertices[4 * i .. 4 * i + 4][k] == Blade(s).vertices[4 * i + k];
  }

  /** The `k`-th vertex of the tip. */
  lemma TipVertexAt(s: nat, k: nat)
    requires k < 3
    ensures Blade(s).vertices[4 * s + k] == TipVertices(s)[k]
  {
    TipOfBlade(s);
    assert Blade(s).vertices[4 * s ..][k] == Blade(s).vertices[4 * s + k];
  }

  /**
   The quads stack without gaps: the top edge of quad `i` is the bottom edge
   of quad `i + 1`, and the top edge of the last quad is the tip's base.
   */
  lemma QuadsStack(s: nat)
    ensures forall i :: 0 <= i && i + 1 < s ==>
      Blade(s).vertices[4 * i + 2] == Blade(s).vertices[4 * (i + 1)] &&
      Blade(s).vertices[4 * i + 3] == Blade(s).vertices[4 * (i + 1) + 1]
    ensures 0 < s ==>
      Blade(s).vertices[4 * (s - 1) + 2] == Blade(s).vertices[4 * s] &&
      Blade(s).vertices[4 * (s - 1) + 3] == Blade(s).vertices[4 * s + 2]
  {
    forall i | 0 <= i && i + 1 < s
      ensures Blade(s).vertices[4 * i + 2] == Blade(s).vertices[4 * (i + 1)]
      ensures Blade(s).vertices[4 * i + 3] == Blade(s).vertices[4 * (i + 1) + 1]
    {
      QuadVertexAt(s, i, 2);
      QuadVertexAt(s, i, 3);
      QuadVertexAt(s, i + 1, 0);
      QuadVertexAt(s, i + 1, 1);
    }
    if 0 < s {
      QuadVertexAt(s, s - 1, 2);
      QuadVertexAt(s, s - 1, 3);
      TipVertexAt(s, 0);
      TipVertexAt(s, 2);
    }
  }

  /** Every vertex lies in the blade's unit-high, half-unit-wide rectangle; the bottom is at 0 and the apex at 1. */
  lemma VerticesInBladeRectangle(s: nat)
    ensures forall k :: 0 <= k < |Blade(s).vertices| ==>
      0.0 <= Blade(s).vertices[k].y <= 1.0 && -HalfWidth <= Blade(s).vertices[k].x <= HalfWidth && Blade(s).vertices[k].z == 0.0
    ensures Blade(s).vertices[0].y == 0.0
    ensures Blade(s).vertices[4 * s + 1] == Vec3(0.0, 1.0, 0.0)
  {
    var v := Blade(s).vertices;
    forall k | 0 <= k < |v|
      ensures 0.0 <= v[k].y <= 1.0 && -HalfWidth <= v[k].x <= HalfWidth && v[k].z == 0.0
    {
      if k < 4 * s {
        var i := k / 4;
        QuadVertexAt(s, i, k - 4 * i);
        HeightFacts(s, i);
        HeightFacts(s, i + 1);
      } else {
        TipVertexAt(s, k - 4 * s);
        HeightFacts(s, s);
      }
    }
    TipVertexAt(s, 1);
    HeightFacts(s, 0);
    if 0 < s {
      QuadVertexAt(s, 0, 0);
    } else {
      TipVertexAt(s, 0);
    }
  }

  /** Twice the signed area of the triangle (a, b, c) in the xy-plane; negative means clockwise. */
  function SignedArea(a: Vec3, b: Vec3, c: Vec3): real
  {
    (b.x - a.x) * (c.y - a.y) - (b.y - a.y) * (c.x - a.x)
  }

  /** Every index of the mesh names one of its vertices. */
  ghost predicate IndicesValid(m: Mesh)
  {
    forall k :: 0 <= k < |m.triangles| ==> 0 <= m.triangles[k] < |m.vertices|
  }

  /** The `t`-th triangle's signed area (triangles are taken three indices at a time). */
  ghost function TriangleArea(m: Mesh, t: nat): real
    requires 3 * t + 2 < |m.triangles| && IndicesValid(m)
  {
    SignedArea(m.vertices[m.triangles[3 * t]], m.vertices[m.triangles[3 * t + 1]], m.vertices[m.triangles[3 * t + 2]])
  }

  /** The three corners of triangle `t` of the blade, given the vertex slots its indices name. */
  lemma TriangleCorners(s: nat, t: nat, i0: nat, i1: nat, i2: nat)
    requires IndicesValid(Blade(s)) && 3 * t + 2 < |Blade(s).triangles|
    requires Blade(s).triangles[3 * t] == i0 && Blade(s).triangles[3 * t + 1] == i1 && Blade(s).triangles[3 * t + 2] == i2
    ensures TriangleArea(Blade(s), t) == SignedArea(Blade(s).vertices[i0], Blade(s).vertices[i1], Blade(s).vertices[i2])
  {
  }

  /** The first triangle of a quad between heights `lo < hi`: bottom-left, top-right, bottom-right. */
  lemma LowerTriangleArea(lo: real, hi: real)
    requires lo < hi
    ensures SignedArea(Vec3(-HalfWidth, lo, 0.0), Vec3(HalfWidth, hi, 0.0), Vec3(HalfWidth, lo, 0.0)) < 0.0
  {
    assert SignedArea(Vec3(-HalfWidth, lo, 0.0), Vec3(HalfWidth, hi, 0.0), Vec3(HalfWidth, lo, 0.0)) == -(hi - lo) * 0.5;
  }

  /** The second triangle of a quad between heights `lo < hi`: bottom-left, top-left, top-right. */
  lemma UpperTriangleArea(lo: real, hi: real)
    requires lo < hi
    ensures SignedArea(Vec3(-HalfWidth, lo, 0.0), Vec3(-HalfWidth, hi, 0.0), Vec3(HalfWidth, hi, 0.0)) < 0.0
  {
    assert SignedArea(Vec3(-HalfWidth, lo, 0.0), Vec3(-HalfWidth, hi, 0.0), Vec3(HalfWidth, hi, 0.0)) == -(hi - lo) * 0.5;
  }

  /** The tip triangle over a base at height `lo < 1`: left base, apex, right base. */
  lemma TipTriangleArea(lo: real)
    requires lo < 1.0
    ensures SignedArea(Vec3(-HalfWidth, lo, 0.0), Vec3(0.0, 1.0, 0.0), Vec3(HalfWidth, lo, 0.0)) < 0.0
  {
    assert SignedArea(Vec3(-HalfWidth, lo, 0.0), Vec3(0.0, 1.0, 0.0), Vec3(HalfWidth, lo, 0.0)) == -(1.0 - lo) * 0.5;
  }

  /** Quad `i`'s first triangle (4i, 4i+3, 4i+1) is clockwise. */
  lemma QuadLowerWinding(s: nat, i: nat)
    requires i < s && IndicesValid(Blade(s)) && |Blade(s).triangles| == 6 * s + 3
    ensures TriangleArea(Blade(s), 2 * i) < 0.0
  {
    var m := Blade(s);
    QuadOfBlade(s, i);
    var q := m.triangles[6 * i .. 6 * i + 6];
    assert m.triangles[6 * i] == q[0] && m.triangles[6 * i + 1] == q[1] && m.triangles[6 * i + 2] == q[2];
    TriangleCorners(s, 2 * i, 4 * i, 4 * i + 3, 4 * i + 1);
    QuadVertexAt(s, i, 0);
    QuadVertexAt(s, i, 1);
    QuadVertexAt(s, i, 3);
    HeightFacts(s, i);
    LowerTriangleArea(Height(s, i), Height(s, i + 1));
  }

  /** Quad `i`'s second triangle (4i, 4i+2, 4i+3) is clockwise. */
  lemma QuadUpperWinding(s: nat, i: nat)
    requires i < s && IndicesValid(Blade(s)) && |Blade(s).triangles| == 6 * s + 3
    ensures TriangleArea(Blade(s), 2 * i + 1) < 0.0
  {
    var m := Blade(s);
    QuadOfBlade(s, i);
    var q := m.triangles[6 * i .. 6 * i + 6];
    assert m.triangles[6 * i + 3] == q[3] && m.triangles[6 * i + 4] == q[4] && m.triangles[6 * i + 5] == q[5];
    TriangleCorners(s, 2 * i + 1, 4 * i, 4 * i + 2, 4 * i + 3);
    QuadVertexAt(s, i, 0);
    QuadVertexAt(s, i, 2);
    QuadVertexAt(s, i, 3);
    HeightFacts(s, i);
    UpperTriangleArea(Height(s, i), Height(s, i + 1));
  }

  /** The tip triangle is clockwise. */
  lemma TipWinding(s: nat)
    requires IndicesValid(Blade(s)) && |Blade(s).triangles| == 6 * s + 3
    ensures TriangleArea(Blade(s), 2 * s) < 0.0
  {
    var m := Blade(s);
    TipOfBlade(s);
    var q := m.triangles[6 * s ..];
    assert m.triangles[6 * s] == q[0] && m.triangles[6 * s + 1] == q[1] && m.triangles[6 * s + 2] == q[2];
    TriangleCorners(s, 2 * s, 4 * s, 4 * s + 1, 4 * s + 2);
    TipVertexAt(s, 0);
    TipVertexAt(s, 1);
    TipVertexAt(s, 2);
    HeightFacts(s, s);
    TipTriangleArea(Height(s, s));
  }

  /**
   All `1 + 2s` triangles share one winding, clockwise when viewed from -z
   (Unity's front-face convention), and none is degenerate.
   */
  lemma ConsistentWinding(s: nat)
    ensures IndicesValid(Blade(s)) && |Blade(s).triangles| == 3 * (1 + 2 * s)
    ensures forall t :: 0 <= t < 1 + 2 * s ==> TriangleArea(Blade(s), t) < 0.0
  {
    BladeCounts(s);
    forall t | 0 <= t < 1 + 2 * s
      ensures TriangleArea(Blade(s), t) < 0.0
    {
      if t < 2 * s {
        if t % 2 == 0 {
          QuadLowerWinding(s, t / 2);
        } else {
          QuadUpperWinding(s, t / 2);
        }
      } else {
        TipWinding(s);
      }
    }
  }
}

=== FILE: CameraBounds.dfy ===
/**
 The camera bounds (`CalculateCameraBounds`): the axis-aligned box around the
 eight frustum corners (four on the near clip plane, four at the draw
 distance), grown by `Bounds.Expand(1)`. The corners come from Unity's
 `ViewportToWorldPoint` and are inputs here. The two scripts compute the box
 differently: the data pass takes LINQ `Min`/`Max` over one array, the
 renderer takes `Mathf.Max`/`Mathf.Min` over the corners in another order and
 rebuilds the box from center and absolute size.
 */
module CameraBounds {
  import opened Mathf
  import opened Geometry

  /** The argument of `Bounds.Expand` in both variants: the size grows by one unit. */
  const ExpandAmount: real := 1.0

  /** How far each face of the expanded box lies beyond the extreme corner. */
  const Margin: real := ExpandAmount / 2.0

  /**
   The world-space frustum corners at viewport (0,1), (1,1), (0,0) and (1,0),
   first on the near clip plane, then at the draw distance.
   */
  datatype Frustum = Frustum(
    near0: Vec3, near1: Vec3, near2: Vec3, near3: Vec3,
    far0: Vec3, far1: Vec3, far2: Vec3, far3: Vec3)

  /** The corner array of the data pass: near corners, then far corners. */
  function Corners(f: Frustum): seq<Vec3>
  {
    [f.near0, f.near1, f.near2, f.near3, f.far0, f.far1, f.far2, f.far3]
  }

  /** The argument order of the renderer's `Mathf.Max`/`Mathf.Min` calls. */
  function RendererCornerOrder(f: Frustum): seq<Vec3>
  {
    [f.far0, f.far1, f.near0, f.near1, f.far2, f.far3, f.near2, f.near3]
  }

  /** One coordinate of every point, in order (`corners.Select(c => c.x)`). */
  function Project(ps: seq<Vec3>, a: Axis): (vs: seq<real>)
    ensures |vs| == |ps|
    ensures forall i :: 0 <= i < |ps| ==> vs[i] == Component(ps[i], a)
  {
    seq(|ps|, i requires 0 <= i < |ps| => Component(ps[i], a))
  }

  function LowCorner(ps: seq<Vec3>): Vec3
    requires |ps| > 0
  {
    Vec3(MinOf(Project(ps, X)), MinOf(Project(ps, Y)), MinOf(Project(ps, Z)))
  }

  function HighCorner(ps: seq<Vec3>): Vec3
    requires |ps| > 0
  {
    Vec3(MaxOf(Project(ps, X)), MaxOf(Project(ps, Y)), MaxOf(Project(ps, Z)))
  }

  /**
   On every axis, each face of `b` lies exactly `m` beyond the extreme point
   of `ps`: no point is closer than `m` to a face, and on each face some
   point is exactly `m` away.
   */
  ghost predicate FitsWithMargin(b: Bounds, ps: seq<Vec3>, m: real)
  {
    forall a ::
      && (forall i :: 0 <= i < |ps| ==>
            Component(Min(b), a) + m <= Component(ps[i], a) <= Component(Max(b), a) - m)
      && (exists i :: 0 <= i < |ps| && Component(ps[i], a) == Component(Min(b), a) + m)
      && (exists j :: 0 <= j < |ps| && Component(ps[j], a) == Component(Max(b), a) - m)
  }

  /** The data pass's variant: LINQ `Min`/`Max`, center `(min + max) * 0.5`, size `max - min`. */
  function CalculateCameraBounds(f: Frustum): (b: Bounds)
    ensures FitsWithMargin(b, Corners(f), Margin)
    ensures forall i :: 0 <= i < 8 ==> Contains(b, Corners(f)[i])
    ensures forall a :: Component(Min(b), a) < Component(Max(b), a)
  {
    var low := LowCorner(Corners(f));
    var high := HighCorner(Corners(f));
    FitsAroundExtremes(Corners(f), low, high);
    Expand(FromCenterSize(Scale(Add(low, high), 0.5), Sub(high, low)), ExpandAmount)
  }

  /** The box spanned by the extreme points, expanded, fits the points with the margin. */
  lemma FitsAroundExtremes(ps: seq<Vec3>, low: Vec3, high: Vec3)
    requires |ps| > 0 && low == LowCorner(ps) && high == HighCorner(ps)
    ensures FitsWithMargin(Expand(FromCenterSize(Scale(Add(low, high), 0.5), Sub(high, low)), ExpandAmount), ps, Margin)
  {
    var b := Expand(FromCenterSize(Scale(Add(low, high), 0.5), Sub(high, low)), ExpandAmount);
    forall a
      ensures && (forall i :: 0 <= i < |ps| ==>
                    Component(Min(b), a) + Margin <= Component(ps[i], a) <= Component(Max(b), a) - Margin)
              && (exists i :: 0 <= i < |ps| && Component(ps[i], a) == Component(Min(b), a) + Margin)
              && (exists j :: 0 <= j < |ps| && Component(ps[j], a) == Component(Max(b), a) - Margin)
    {
      var vs := Project(ps, a);
      assert Component(Min(b), a) + Margin == MinOf(vs) by {
        match a
        case X =>
        case Y =>
        case Z =>
      }
      assert Component(Max(b), a) - Margin == MaxOf(vs) by {
        match a
        case X =>
        case Y =>
        case Z =>
      }
      var i :| 0 <= i < |vs| && vs[i] == MinOf(vs);
      var j :| 0 <= j < |vs| && vs[j] == MaxOf(vs);
    }
  }

  /**
   The renderer's variant: `start = Mathf.Max(...)`, `end = Mathf.Min(...)`,
   center `(start + end) / 2`, size `Mathf.Abs(start - end)`.
   */
  function CalculateCameraBoundsMaxMin(f: Frustum): Bounds
  {
    var ps := RendererCornerOrder(f);
    var start := HighCorner(ps);
    var end := LowCorner(ps);
    var center := Vec3((start.x + end.x) / 2.0, (start.y + end.y) / 2.0, (start.z + end.z) / 2.0);
    var size := Vec3(Abs(start.x - end.x), Abs(start.y - end.y), Abs(start.z - end.z));
    Expand(FromCenterSize(center, size), ExpandAmount)
  }

  /** On each axis, both corner orders hold the same values, so their extremes agree. */
  lemma ExtremesAgree(f: Frustum, a: Axis)
    ensures MaxOf(Project(RendererCornerOrder(f), a)) == MaxOf(Project(Corners(f), a))
    ensures MinOf(Project(RendererCornerOrder(f), a)) == MinOf(Project(Corners(f), a))
  {
    var ps, qs := Project(RendererCornerOrder(f), a), Project(Corners(f), a);
    var c := (v: Vec3) => Component(v, a);
    assert ps == [c(f.far0), c(f.far1), c(f.near0), c(f.near1), c(f.far2), c(f.far3), c(f.near2), c(f.near3)];
    assert qs == [c(f.near0), c(f.near1), c(f.near2), c(f.near3), c(f.far0), c(f.far1), c(f.far2), c(f.far3)];
    MaxOfSameValues(ps, qs);
    MinOfSameValues(ps, qs);
  }

  /** The high corner lies at or above the low corner on every axis. */
  lemma HighAboveLow(ps: seq<Vec3>)
    requires |ps| > 0
    ensures LowCorner(ps).x <= HighCorner(ps).x
    ensures LowCorner(ps).y <= HighCorner(ps).y
    ensures LowCorner(ps).z <= HighCorner(ps).z
  {
    assert Project(ps, X)[0] == ps[0].x;
    assert Project(ps, Y)[0] == ps[0].y;
    assert Project(ps, Z)[0] == ps[0].z;
  }

  /** The renderer's variant is the box spanned by the data pass's extreme corners, expanded. */
  lemma MaxMinSpansExtremes(f: Frustum)
    ensures CalculateCameraBoundsMaxMin(f)
         == Expand(FromCenterSize(Scale(Add(LowCorner(Corners(f)), HighCorner(Corners(f))), 0.5),
                                  Sub(HighCorner(Corners(f)), LowCorner(Corners(f)))), ExpandAmount)
  {
    var ps, qs := RendererCornerOrder(f), Corners(f);
    var hi, lo := HighCorner(qs), LowCorner(qs);
    assert HighCorner(ps) == hi && LowCorner(ps) == lo by {
      ExtremesAgree(f, X);
      ExtremesAgree(f, Y);
      ExtremesAgree(f, Z);
    }
    HighAboveLow(qs);
    assert Vec3((hi.x + lo.x) / 2.0, (hi.y + lo.y) / 2.0, (hi.z + lo.z) / 2.0) == Scale(Add(lo, hi), 0.5);
    assert Vec3(Abs(hi.x - lo.x), Abs(hi.y - lo.y), Abs(hi.z - lo.z)) == Sub(hi, lo);
  }

  /** Both variants produce the same box from the same eight corners. */
  lemma CameraBoundsVariantsAgree(f: Frustum)
    ensures CalculateCameraBoundsMaxMin(f) == CalculateCameraBounds(f)
  {
    MaxMinSpansExtremes(f);
  }
}

=== FILE: CenterPosition.dfy ===
/**
 Camera-cell snapping (`CalculateCenterPosition`, written identically in the
 renderer and in the data pass): each horizontal coordinate of the camera is
 rounded down to a multiple of the texture-update threshold, so the data
 textures are re-centered only when the camera crosses a cell boundary.
 */
module CenterPosition {
  import opened Mathf
  import opened Geometry

  /** The index of the threshold-sized cell that holds `p`. */
  function CellIndex(p: real, t: real): int
    requires t != 0.0
  {
    FloorToInt(p / t)
  }

  /** The `n`-th multiple of the threshold `t`: the corner of cell `n`. */
  function Multiple(n: int, t: real): real
  {
    n as real * t
  }

  /** `Mathf.Floor(p / t) * t` for one axis. */
  function Snap(p: real, t: real): (c: real)
    requires t != 0.0
    ensures exists n: int :: c == Multiple(n, t)
    ensures 0.0 < t ==> p - t < c <= p
    ensures t < 0.0 ==> p <= c < p - t
  {
    CellCorner(p, t);
    Multiple(CellIndex(p, t), t)
  }

  /** The lower corner of `p`'s cell lies within one threshold of `p`, on the side the sign of `t` selects. */
  lemma CellCorner(p: real, t: real)
    requires t != 0.0
    ensures 0.0 < t ==> p - t < CellIndex(p, t) as real * t <= p
    ensures t < 0.0 ==> p <= CellIndex(p, t) as real * t < p - t
  {
    var n := CellIndex(p, t);
    assert p / t * t == p;
    if 0.0 < t {
      MulMono(n as real, p / t, t);
      MulStrictMono(p / t, n as real + 1.0, t);
    } else {
      MulMono(n as real, p / t, -t);
      MulStrictMono(p / t, n as real + 1.0, -t);
    }
  }

  /** The center position: the camera's x and z, each snapped to the threshold grid. */
  function CalculateCenterPosition(cameraPosition: Vec3, threshold: real): Vec2
    requires threshold != 0.0
  {
    Vec2(Snap(cameraPosition.x, threshold), Snap(cameraPosition.z, threshold))
  }

  /** A multiple of the threshold is its own cell's corner. */
  lemma SnapOfMultiple(n: int, t: real)
    requires t != 0.0
    ensures CellIndex(n as real * t, t) == n
    ensures Snap(n as real * t, t) == n as real * t
  {
    assert n as real * t / t == n as real;
  }

  /** Snapping an already snapped coordinate leaves it unchanged. */
  lemma SnapIdempotent(p: real, t: real)
    requires t != 0.0
    ensures Snap(Snap(p, t), t) == Snap(p, t)
  {
    SnapOfMultiple(CellIndex(p, t), t);
  }

  /** Two coordinates snap to the same value exactly when they lie in the same cell. */
  lemma SnapSameCell(p: real, q: real, t: real)
    requires t != 0.0
    ensures CellIndex(p, t) == CellIndex(q, t) <==> Snap(p, t) == Snap(q, t)
  {
    var m, n := CellIndex(p, t), CellIndex(q, t);
    if Snap(p, t) == Snap(q, t) {
      assert m as real * t / t == n as real * t / t;
    }
  }

  /** When `q`'s cell lies beyond `p`'s, the corner of `q`'s cell lies after `p` and at or before `q`. */
  lemma CornerBetween(p: real, q: real, t: real)
    requires 0.0 < t && CellIndex(p, t) < CellIndex(q, t)
    ensures p < CellIndex(q, t) as real * t <= q
  {
    var m, n := CellIndex(p, t) as real, CellIndex(q, t) as real;
    assert p < m * t + t by {
      CellCorner(p, t);
    }
    assert n * t <= q by {
      CellCorner(q, t);
    }
    assert m + 1.0 <= n;
    MulMono(m + 1.0, n, t);
    assert (m + 1.0) * t == m * t + t;
    assert p < m * t + t <= n * t;
  }

  /**
   Moving the camera forward along an axis changes the snapped value only if
   it passes a multiple of the threshold on the way.
   */
  lemma SnapChangesOnlyAcrossBoundary(p: real, q: real, t: real)
    requires 0.0 < t && p <= q
    requires Snap(p, t) != Snap(q, t)
    ensures exists k: int :: p < Multiple(k, t) <= q
  {
    var m, n := CellIndex(p, t), CellIndex(q, t);
    assert m != n by {
      assert Snap(p, t) == Multiple(m, t) && Snap(q, t) == Multiple(n, t);
    }
    assert m <= n by {
      DivMono(p, q, t);
    }
    CornerBetween(p, q, t);
    assert p < Multiple(n, t) <= q;
  }

  /** Two camera positions in the same cell on both axes share one center position, and only they do. */
  lemma CenterPositionSameCell(a: Vec3, b: Vec3, t: real)
    requires t != 0.0
    ensures CellIndex(a.x, t) == CellIndex(b.x, t) && CellIndex(a.z, t) == CellIndex(b.z, t)
        <==> CalculateCenterPosition(a, t) == CalculateCenterPosition(b, t)
  {
    SnapSameCell(a.x, b.x, t);
    SnapSameCell(a.z, b.z, t);
  }
}

=== FILE: Geometry.dfy ===
/**
 The Unity value types the grass scripts compute with: `Vector2`, `Vector3`
 and the axis-aligned `Bounds`, which Unity stores as a center and a
 half-size ("extents").
 */
module Geometry {

  datatype Vec2 = Vec2(x: real, y: real)

  datatype Vec3 = Vec3(x: real, y: real, z: real)

  datatype Axis = X | Y | Z

  function Component(v: Vec3, a: Axis): real
  {
    match a
    case X => v.x
    case Y => v.y
    case Z => v.z
  }

  function Add(u: Vec3, v: Vec3): Vec3
  {
    Vec3(u.x + v.x, u.y + v.y, u.z + v.z)
  }

  function Sub(u: Vec3, v: Vec3): Vec3
  {
    Vec3(u.x - v.x, u.y - v.y, u.z - v.z)
  }

  function Scale(v: Vec3, k: real): Vec3
  {
    Vec3(v.x * k, v.y * k, v.z * k)
  }

  /** `UnityEngine.Bounds`. */
  datatype Bounds = Bounds(center: Vec3, extents: Vec3)

  /** `new Bounds(center, size)`: the extents are half the size. */
  function FromCenterSize(center: Vec3, size: Vec3): Bounds
  {
    Bounds(center, Scale(size, 0.5))
  }

  /** `Bounds.min`. */
  function Min(b: Bounds): Vec3
  {
    Sub(b.center, b.extents)
  }

  /** `Bounds.max`. */
  function Max(b: Bounds): Vec3
  {
    Add(b.center, b.extents)
  }

  /** `Bounds.size`. */
  function Size(b: Bounds): Vec3
  {
    Scale(b.extents, 2.0)
  }

  /**
   `Bounds.Expand(amount)`: the size grows by `amount` on every axis, so each
   face moves outward by half of it and the center stays put.
   */
  function Expand(b: Bounds, amount: real): (e: Bounds)
    ensures e.center == b.center
    ensures forall a :: Component(Min(e), a) == Component(Min(b), a) - amount / 2.0
    ensures forall a :: Component(Max(e), a) == Component(Max(b), a) + amount / 2.0
  {
    var half := amount * 0.5;
    Bounds(b.center, Add(b.extents, Vec3(half, half, half)))
  }

  /** The point lies inside the box or on its boundary. */
  predicate Contains(b: Bounds, p: Vec3)
  {
    forall a :: Component(Min(b), a) <= Component(p, a) <= Component(Max(b), a)
  }
}

=== FILE: GrassDataPass.dfy ===
/**
 The render pass `GrassDataPass`: when its three references are set it
 renders the data textures around the camera cell, then sets up the compute
 grid over the camera bounds, resets the position buffer's append counter,
 dispatches the compute shader, and copies the counter into the instance
 count of the renderer's indirect-arguments record (and, for the debug
 preview, into the one-entry debug buffer).

 The pass's work is an ordered list of `Command`s, in the order the pass
 issues them. For the commands that touch the append counter and the
 renderer's buffers (buffer creation, `SetCounterValue`, the dispatch and the
 counter copies) that order is also the order in time: the direct calls run
 before the command buffer they precede. `RenderDataTextures` stands for
 work that runs when the command buffer is submitted, so its place in the
 list is the order of issue only. `Gpu` gives
 the commands that touch the counter and the two renderer buffers their
 effect; the compute shader's output is an input, `emitted`.
 */
module GrassDataPass {
  import opened Mathf
  import opened Geometry
  import opened BladeMesh
  import opened MeshCache
  import opened CenterPosition
  import opened CameraBounds
  import opened GrassGrid
  import opened InfiniteGrassRenderer
  import opened Traces

  /** Whether `InfiniteGrassRenderer.Instance`, `heightMapMat` and `computeShader` are set. */
  datatype Components = Components(hasRenderer: bool, hasHeightMapMat: bool, hasComputeShader: bool)

  /** `ValidateComponents`: all three references are set. */
  predicate ValidateComponents(c: Components)
  {
    c.hasRenderer && c.hasHeightMapMat && c.hasComputeShader
  }

  /** A grass position is three floats. */
  const PositionStride: int := 12

  /** The byte offset of the instance count in the indirect-arguments record (its second `uint`). */
  const InstanceCountOffset: int := 4

  /** The byte offset of the visible-count slot in the debug buffer. */
  const TemporalCountOffset: int := 0

  /** The renderer buffers a counter can be copied into. */
  datatype Target = ArgsTarget | TemporalTarget

  /** The values the pass hands to the compute shader. */
  datatype ComputeParams = ComputeParams(
    fullDensityDistance: real,
    boundsMin: Vec3,
    boundsMax: Vec3,
    cameraPosition: Vec3,
    centerPos: Vec2,
    drawDistance: real,
    textureUpdateThreshold: real,
    spacing: real,
    grid: Grid)

  datatype Command =
    | RenderDataTextures(bounds: Bounds, centerPos: Vec2)
    | ReleasePositions
    | CreatePositions(count: int, stride: int)
    | SetComputeParams(params: ComputeParams)
    | ResetCounter
    | Dispatch(x: int, y: int, z: int)
    | BindPositions
    | CopyCounter(target: Target, byteOffset: int)

  /** The pass's own state: whether `grassPositionsBuffer` has been assigned. */
  datatype Pass = Pass(hasPositions: bool)

  /** One `Execute`: the pass afterwards and the commands, in order. */
  datatype PassFrame = PassFrame(pass: Pass, commands: seq<Command>)

  /** `(int)(1000000 * maxBufferCount)`: the append buffer's capacity in positions. */
  function AppendCapacity(maxBufferCount: real): (n: int)
    ensures n == InstanceCapacity(maxBufferCount)
  {
    assert InstancesPerUnit * maxBufferCount == maxBufferCount * InstancesPerUnit;
    TruncToInt(InstancesPerUnit * maxBufferCount)
  }

  /** The commands that read or write the append counter. */
  predicate IsCounterCommand(c: Command)
  {
    c.ResetCounter? || c.Dispatch? || c.CopyCounter?
  }

  /**
   The start of `SetupGrassBuffer`: release last frame's position buffer if
   there is one, create a new one, and hand the grid and the frame's values
   to the compute shader.
   */
  function SetupPrefix(p: Pass, bounds: Bounds, st: Settings, cameraPosition: Vec3, centerPos: Vec2): (cmds: seq<Command>)
    requires st.spacing != 0.0
    ensures forall c :: c in cmds ==> !IsCounterCommand(c)
  {
    var params := ComputeParams(st.fullDensityDistance, Min(bounds), Max(bounds), cameraPosition, centerPos,
                                st.drawDistance, st.textureUpdateThreshold, st.spacing, GridFor(bounds, st.spacing));
    (if p.hasPositions then [ReleasePositions] else [])
    + [CreatePositions(AppendCapacity(st.maxBufferCount), PositionStride), SetComputeParams(params)]
  }

  /** The dispatch over `grid`: one thread per cell, in 8 x 8 groups. */
  function DispatchFor(grid: Grid): Command
  {
    Dispatch(DispatchGroups(grid.sizeX), DispatchGroups(grid.sizeZ), 1)
  }

  /** Reset the counter, dispatch, bind the positions, copy the counter into the instance count. */
  function CounterBlock(grid: Grid): seq<Command>
  {
    [ResetCounter, DispatchFor(grid), BindPositions, CopyCounter(ArgsTarget, InstanceCountOffset)]
  }

  /** The copy into the debug buffer, issued only for the preview. */
  function DebugCopy(preview: bool): seq<Command>
  {
    if preview then [CopyCounter(TemporalTarget, TemporalCountOffset)] else []
  }

  /** `SetupGrassBuffer`. */
  function SetupGrassBuffer(p: Pass, bounds: Bounds, st: Settings, cameraPosition: Vec3, centerPos: Vec2): seq<Command>
    requires st.spacing != 0.0
  {
    SetupPrefix(p, bounds, st, cameraPosition, centerPos)
    + CounterBlock(GridFor(bounds, st.spacing))
    + DebugCopy(st.previewVisibleGrassCount)
  }

  /**
   `Execute`: nothing at all unless the components are set; otherwise the
   data textures around the camera cell, then the grass buffer.
   */
  function Execute(p: Pass, c: Components, st: Settings, cam: CameraView): (pf: PassFrame)
    requires ValidateComponents(c) ==> st.spacing != 0.0 && st.textureUpdateThreshold != 0.0
    ensures ValidateComponents(c) ==> pf.pass.hasPositions
  {
    if !ValidateComponents(c) then PassFrame(p, [])
    else
      var bounds := CalculateCameraBounds(cam.frustum);
      var centerPos := CalculateCenterPosition(cam.position, st.textureUpdateThreshold);
      PassFrame(Pass(true), [RenderDataTextures(bounds, centerPos)]
                            + SetupGrassBuffer(p, bounds, st, cam.position, centerPos))
  }

  /** A pass with a missing component issues no command and keeps its state; with all three it always issues some. */
  lemma ExecuteGuard(p: Pass, c: Components, st: Settings, cam: CameraView)
    requires ValidateComponents(c) ==> st.spacing != 0.0 && st.textureUpdateThreshold != 0.0
    ensures Execute(p, c, st, cam).commands == [] <==> !ValidateComponents(c)
    ensures !ValidateComponents(c) ==> Execute(p, c, st, cam).pass == p
  {
  }

  /** The commands of a frame that gets past the guard: the data textures, the set-up, the counter block, the debug copy. */
  lemma ExecuteShape(p: Pass, c: Components, st: Settings, cam: CameraView)
    requires ValidateComponents(c) && st.spacing != 0.0 && st.textureUpdateThreshold != 0.0
    ensures var bounds := CalculateCameraBounds(cam.frustum);
      var centerPos := CalculateCenterPosition(cam.position, st.textureUpdateThreshold);
      Execute(p, c, st, cam).commands
        == ([RenderDataTextures(bounds, centerPos)] + SetupPrefix(p, bounds, st, cam.position, centerPos))
           + CounterBlock(GridFor(bounds, st.spacing)) + DebugCopy(st.previewVisibleGrassCount)
  {
  }

  /** Filtering the counter commands out of a set-up, a counter block and a debug copy. */
  lemma CounterFilter(pre: seq<Command>, grid: Grid, preview: bool)
    requires forall c :: c in pre ==> !IsCounterCommand(c)
    ensures Filter(pre + CounterBlock(grid) + DebugCopy(preview), IsCounterCommand)
         == [ResetCounter, DispatchFor(grid), CopyCounter(ArgsTarget, InstanceCountOffset)] + DebugCopy(preview)
  {
    var block, debug := CounterBlock(grid), DebugCopy(preview);
    FilterAppend(pre + block, debug, IsCounterCommand);
    FilterAppend(pre, block, IsCounterCommand);
    FilterNone(pre, IsCounterCommand);
    BlockFilter(grid);
    DebugFilter(preview);
  }

  /** The counter block's counter commands: all but the binding. */
  lemma BlockFilter(grid: Grid)
    ensures Filter(CounterBlock(grid), IsCounterCommand)
         == [ResetCounter, DispatchFor(grid), CopyCounter(ArgsTarget, InstanceCountOffset)]
  {
    var copy := CopyCounter(ArgsTarget, InstanceCountOffset);
    assert [copy][1..] == [];
    assert Filter([copy], IsCounterCommand) == [copy];
    assert [BindPositions, copy][1..] == [copy];
    assert Filter([BindPositions, copy], IsCounterCommand) == [copy];
    assert [DispatchFor(grid), BindPositions, copy][1..] == [BindPositions, copy];
    assert Filter([DispatchFor(grid), BindPositions, copy], IsCounterCommand) == [DispatchFor(grid), copy];
    assert CounterBlock(grid)[1..] == [DispatchFor(grid), BindPositions, copy];
  }

  /** The debug copy is a counter command. */
  lemma DebugFilter(preview: bool)
    ensures Filter(DebugCopy(preview), IsCounterCommand) == DebugCopy(preview)
  {
    if preview {
      assert DebugCopy(preview)[1..] == [];
    }
  }

  /**
   The counter commands of a frame, in order: reset, one dispatch over the
   grid in 8 x 8 groups, the copy into the instance count, and the copy into
   the debug buffer exactly when the preview is on.
   */
  lemma CounterCommandOrder(p: Pass, c: Components, st: Settings, cam: CameraView)
    requires ValidateComponents(c) && st.spacing != 0.0 && st.textureUpdateThreshold != 0.0
    ensures var grid := GridFor(CalculateCameraBounds(cam.frustum), st.spacing);
      Filter(Execute(p, c, st, cam).commands, IsCounterCommand)
        == [ResetCounter, Dispatch(DispatchGroups(grid.sizeX), DispatchGroups(grid.sizeZ), 1), CopyCounter(ArgsTarget, InstanceCountOffset)]
           + (if st.previewVisibleGrassCount then [CopyCounter(TemporalTarget, TemporalCountOffset)] else [])
  {
    var bounds := CalculateCameraBounds(cam.frustum);
    var centerPos := CalculateCenterPosition(cam.position, st.textureUpdateThreshold);
    ExecuteShape(p, c, st, cam);
    CounterFilter([RenderDataTextures(bounds, centerPos)] + SetupPrefix(p, bounds, st, cam.position, centerPos),
                  GridFor(bounds, st.spacing), st.previewVisibleGrassCount);
  }

  /** In every frame the counter is reset before the dispatch, and the dispatch comes before the copy into the arguments. */
  lemma ResetDispatchCopyOrder(p: Pass, c: Components, st: Settings, cam: CameraView)
    requires ValidateComponents(c) && st.spacing != 0.0 && st.textureUpdateThreshold != 0.0
    ensures var cmds := Execute(p, c, st, cam).commands;
      var grid := GridFor(CalculateCameraBounds(cam.frustum), st.spacing);
      var dispatch := Dispatch(DispatchGroups(grid.sizeX), DispatchGroups(grid.sizeZ), 1);
      && OccursBefore(cmds, ResetCounter, dispatch)
      && OccursBefore(cmds, dispatch, CopyCounter(ArgsTarget, InstanceCountOffset))
  {
    var cmds := Execute(p, c, st, cam).commands;
    var k := if p.hasPositions then 4 else 3;
    assert cmds[k] == ResetCounter;
    assert cmds[k + 1].Dispatch?;
    assert cmds[k + 3] == CopyCounter(ArgsTarget, InstanceCountOffset);
  }

  /** Turning the debug preview on only appends the copy into the debug buffer; every other command is the same. */
  lemma DebugFlagOnlyAppends(p: Pass, bounds: Bounds, st: Settings, cameraPosition: Vec3, centerPos: Vec2)
    requires st.spacing != 0.0
    ensures SetupGrassBuffer(p, bounds, st.(previewVisibleGrassCount := true), cameraPosition, centerPos)
         == SetupGrassBuffer(p, bounds, st.(previewVisibleGrassCount := false), cameraPosition, centerPos)
            + [CopyCounter(TemporalTarget, TemporalCountOffset)]
  {
  }

  /** The append buffer holds as many positions as the arguments record's initial instance count, 12 bytes each. */
  lemma CapacityMatchesArgs(p: Pass, c: Components, st: Settings, cam: CameraView, m: Mesh)
    requires ValidateComponents(c) && st.spacing != 0.0 && st.textureUpdateThreshold != 0.0
    ensures CreatePositions(InitializeArgs(m, m, m, st.maxBufferCount)[1], PositionStride)
            in Execute(p, c, st, cam).commands
  {
    var cmds := Execute(p, c, st, cam).commands;
    var k := if p.hasPositions then 2 else 1;
    assert cmds[k] == CreatePositions(AppendCapacity(st.maxBufferCount), PositionStride);
  }

  /** On x and z, the point lies in the cells the grid spans. */
  predicate CellsCover(g: Grid, spacing: real, v: Vec3)
  {
    && g.startX as real * spacing <= v.x < (g.startX + g.sizeX) as real * spacing
    && g.startZ as real * spacing <= v.z < (g.startZ + g.sizeZ) as real * spacing
  }

  /** A point at least the margin inside the bounds on x and z lies within the grid's cells, for a spacing up to the margin. */
  lemma GridCoversPoint(b: Bounds, spacing: real, v: Vec3)
    requires 0.0 < spacing <= Margin
    requires 0.0 <= b.extents.x && 0.0 <= b.extents.z
    requires Min(b).x + Margin <= v.x <= Max(b).x - Margin
    requires Min(b).z + Margin <= v.z <= Max(b).z - Margin
    ensures CellsCover(GridFor(b, spacing), spacing, v)
  {
    GridCoverage(b, spacing);
  }

  /** Each frustum corner lies at least the margin inside the camera bounds on x and z, and the bounds are not inverted. */
  lemma CornerInsideBounds(f: Frustum, i: nat)
    requires i < 8
    ensures var b := CalculateCameraBounds(f);
      && 0.0 <= b.extents.x && 0.0 <= b.extents.z
      && Min(b).x + Margin <= Corners(f)[i].x <= Max(b).x - Margin
      && Min(b).z + Margin <= Corners(f)[i].z <= Max(b).z - Margin
  {
    var b := CalculateCameraBounds(f);
    assert Component(Min(b), X) < Component(Max(b), X) && Component(Min(b), Z) < Component(Max(b), Z);
    assert Component(Min(b), X) + Margin <= Component(Corners(f)[i], X) <= Component(Max(b), X) - Margin;
    assert Component(Min(b), Z) + Margin <= Component(Corners(f)[i], Z) <= Component(Max(b), Z) - Margin;
  }

  /** Corner `i` of the frustum lies in the grid's cells, for a spacing up to the margin. */
  lemma GridCoversCorner(f: Frustum, spacing: real, i: nat)
    requires 0.0 < spacing <= Margin && i < 8
    ensures CellsCover(GridFor(CalculateCameraBounds(f), spacing), spacing, Corners(f)[i])
  {
    var b := CalculateCameraBounds(f);
    CornerInsideBounds(f, i);
    GridCoversPoint(b, spacing, Corners(f)[i]);
  }

  /**
   With a spacing no wider than the bounds' margin, the compute grid covers
   every frustum corner on x and z: the cells the grid spans begin at or
   before each corner and end beyond it.
   */
  lemma GridCoversFrustum(f: Frustum, spacing: real)
    requires 0.0 < spacing <= Margin
    ensures forall i :: 0 <= i < 8 ==> CellsCover(GridFor(CalculateCameraBounds(f), spacing), spacing, Corners(f)[i])
  {
    forall i | 0 <= i < 8
      ensures CellsCover(GridFor(CalculateCameraBounds(f), spacing), spacing, Corners(f)[i])
    {
      GridCoversCorner(f, spacing, i);
    }
  }

  /** The GPU state the pass's commands act on: the append counter and the renderer's two buffers, as `uint` slots. */
  datatype Gpu = Gpu(counter: int, args: seq<int>, temporal: seq<int>)

  /** `CopyCounterValue` into a buffer: the counter lands in the slot at the byte offset. */
  function CopyInto(slots: seq<int>, byteOffset: int, counter: int): (r: seq<int>)
    ensures |r| == |slots|
    ensures forall k :: 0 <= k < |slots| ==> r[k] == if 4 * k == byteOffset then counter else slots[k]
  {
    if 0 <= byteOffset && byteOffset % 4 == 0 && byteOffset / 4 < |slots| then slots[byteOffset / 4 := counter] else slots
  }

  /** The effect of one command; the dispatch appends `emitted` positions. */
  function Step(g: Gpu, c: Command, emitted: nat): Gpu
  {
    match c
    case ResetCounter => g.(counter := 0)
    case Dispatch(_, _, _) => g.(counter := g.counter + emitted)
    case CopyCounter(ArgsTarget, off) => g.(args := CopyInto(g.args, off, g.counter))
    case CopyCounter(TemporalTarget, off) => g.(temporal := CopyInto(g.temporal, off, g.counter))
    case _ => g
  }

  /** The commands run in order. */
  function Run(g: Gpu, cmds: seq<Command>, emitted: nat): Gpu
    decreases |cmds|
  {
    if |cmds| == 0 then g else Run(Step(g, cmds[0], emitted), cmds[1..], emitted)
  }

  /** Running a concatenation runs the first part, then the second. */
  lemma {:induction false} RunAppend(g: Gpu, xs: seq<Command>, ys: seq<Command>, emitted: nat)
    ensures Run(g, xs + ys, emitted) == Run(Run(g, xs, emitted), ys, emitted)
    decreases |xs|
  {
    if |xs| == 0 {
      assert xs + ys == ys;
    } else {
      assert (xs + ys)[0] == xs[0];
      assert (xs + ys)[1..] == xs[1..] + ys;
      RunAppend(Step(g, xs[0], emitted), xs[1..], ys, emitted);
    }
  }

  /** Commands that do not touch the counter leave the GPU state alone. */
  lemma {:induction false} RunWithoutCounter(g: Gpu, cmds: seq<Command>, emitted: nat)
    requires forall c :: c in cmds ==> !IsCounterCommand(c)
    ensures Run(g, cmds, emitted) == g
    decreases |cmds|
  {
    if |cmds| > 0 {
      assert cmds[0] in cmds;
      assert forall c :: c in cmds[1..] ==> c in cmds;
      RunWithoutCounter(Step(g, cmds[0], emitted), cmds[1..], emitted);
    }
  }

  /**
   A frame's commands leave exactly the emitted count in the instance-count
   slot of the arguments record and change no other slot; the debug buffer
   receives the same count when the preview is on and is untouched
   otherwise.
   */
  lemma {:induction false} ExecuteFeedsDrawCount(p: Pass, c: Components, st: Settings, cam: CameraView, g: Gpu, emitted: nat)
    requires ValidateComponents(c) && st.spacing != 0.0 && st.textureUpdateThreshold != 0.0
    requires |g.args| == ArgsCount && |g.temporal| == 1
    ensures Run(g, Execute(p, c, st, cam).commands, emitted).args == g.args[1 := emitted]
    ensures Run(g, Execute(p, c, st, cam).commands, emitted).temporal
         == if st.previewVisibleGrassCount then [emitted] else g.temporal
  {
    var bounds := CalculateCameraBounds(cam.frustum);
    var centerPos := CalculateCenterPosition(cam.position, st.textureUpdateThreshold);
    ExecuteShape(p, c, st, cam);
    RunCounterBlock(g, [RenderDataTextures(bounds, centerPos)] + SetupPrefix(p, bounds, st, cam.position, centerPos),
                    GridFor(bounds, st.spacing), st.previewVisibleGrassCount, emitted);
  }

  /** The effect of a set-up, a counter block and a debug copy on the GPU state. */
  lemma RunCounterBlock(g: Gpu, pre: seq<Command>, grid: Grid, preview: bool, emitted: nat)
    requires forall c :: c in pre ==> !IsCounterCommand(c)
    requires |g.args| == ArgsCount && |g.temporal| == 1
    ensures Run(g, pre + CounterBlock(grid) + DebugCopy(preview), emitted)
         == Gpu(emitted, g.args[1 := emitted], if preview then [emitted] else g.temporal)
  {
    var block, debug := CounterBlock(grid), DebugCopy(preview);
    RunAppend(g, pre + block, debug, emitted);
    RunAppend(g, pre, block, emitted);
    RunWithoutCounter(g, pre, emitted);
    var copy := CopyCounter(ArgsTarget, InstanceCountOffset);
    var reset := g.(counter := 0);
    var dispatched := reset.(counter := emitted);
    assert Run(g, block, emitted) == Gpu(emitted, g.args[1 := emitted], g.temporal) by {
      assert [copy][1..] == [];
      assert [BindPositions, copy][1..] == [copy];
      assert [DispatchFor(grid), BindPositions, copy][1..] == [BindPositions, copy];
      assert block[1..] == [DispatchFor(grid), BindPositions, copy];
      assert Run(dispatched, [copy], emitted) == Gpu(emitted, g.args[1 := emitted], g.temporal);
      assert Run(dispatched, [BindPositions, copy], emitted) == Run(dispatched, [copy], emitted);
      assert Run(reset, [DispatchFor(grid), BindPositions, copy], emitted) == Run(dispatched, [BindPositions, copy], emitted);
    }
    if preview {
      assert debug[1..] == [];
      assert CopyInto(g.temporal, 0, emitted) == [emitted];
    }
  }

  /** The pass over the record the renderer initialised: only the instance count changes. */
  lemma PassOverInitialisedRecord(p: Pass, c: Components, st: Settings, cam: CameraView, counter: int, emitted: nat)
    requires st.textureUpdateThreshold != 0.0 && ValidateComponents(c) && st.spacing != 0.0
    ensures Run(Gpu(counter, [3 * (1 + 2 * st.grassMeshSubdivision), InstanceCapacity(st.maxBufferCount), 0, 0, 0], [0]),
                Execute(p, c, st, cam).commands, emitted).args
         == [3 * (1 + 2 * st.grassMeshSubdivision), emitted, 0, 0, 0]
  {
    var args := [3 * (1 + 2 * st.grassMeshSubdivision), InstanceCapacity(st.maxBufferCount), 0, 0, 0];
    ExecuteFeedsDrawCount(p, c, st, cam, Gpu(counter, args, [0]), emitted);
    assert args[1 := emitted] == [3 * (1 + 2 * st.grassMeshSubdivision), emitted, 0, 0, 0];
  }

  /**
   A whole frame, renderer then pass: with a valid subdivision, the record
   the indirect draw reads holds the blade's index count, the number of
   positions the compute shader emitted, and zeros.
   */
  lemma FrameFeedsIndirectDraw(v: CacheVersion, r: Renderer, p: Pass, c: Components, st: Settings, cam: CameraView, counter: int, emitted: nat)
    requires !Skips(st) && st.textureUpdateThreshold != 0.0 && ValidateComponents(c)
    requires Coherent(r.cache) && 0 <= st.grassMeshSubdivision
    ensures var f := LateUpdate(v, r, st, cam);
      && f.renderer.argsBuffer.Live? && f.renderer.temporalBuffer.Live?
      && Run(Gpu(counter, f.renderer.argsBuffer.contents, f.renderer.temporalBuffer.contents),
             Execute(p, c, st, cam).commands, emitted).args
         == [3 * (1 + 2 * st.grassMeshSubdivision), emitted, 0, 0, 0]
  {
    DrawnFrameBuffers(v, r, st, cam);
    PassOverInitialisedRecord(p, c, st, cam, counter, emitted);
  }
}

=== FILE: GrassGrid.dfy ===
/**
 The compute grid of `SetupGrassBuffer`: the camera bounds are cut into
 cells of `spacing` on the horizontal axes; the grid starts at the cell that
 holds the bounds' minimum and has as many cells as the bounds' size needs,
 rounded up. The compute shader runs in 8 x 8 thread groups.
 */
module GrassGrid {
  import opened Mathf
  import opened Geometry
  import opened CenterPosition

  /** The side of a compute thread group: the divisor 8 of the dispatch in `SetupGrassBuffer`. */
  const ThreadGroupSize: int := 8

  /** `gridSize` and `gridStartIndex`, both `Vector2Int`s over the x and z axes. */
  datatype Grid = Grid(sizeX: int, sizeZ: int, startX: int, startZ: int)

  /** `Mathf.CeilToInt(extent / spacing)`: the number of cells covering an extent. */
  function GridSize(extent: real, spacing: real): (n: int)
    requires spacing != 0.0
    ensures 0.0 < spacing && 0.0 <= extent ==> 0 <= n
    ensures 0.0 < spacing ==> extent <= n as real * spacing
    ensures 0.0 < spacing ==> (n - 1) as real * spacing < extent
  {
    CeilScaled(extent, spacing);
    CeilToInt(extent / spacing)
  }

  /** Scaling `ceil(x / t)` back by a positive `t` lands in `[x, x + t)`. */
  lemma CeilScaled(x: real, t: real)
    requires t != 0.0
    ensures 0.0 < t ==> x <= CeilToInt(x / t) as real * t
    ensures 0.0 < t ==> (CeilToInt(x / t) - 1) as real * t < x
  {
    var n := CeilToInt(x / t);
    if 0.0 < t {
      assert x / t * t == x;
      MulMono(x / t, n as real, t);
      assert n as real - 1.0 < x / t;
      MulStrictMono(n as real - 1.0, x / t, t);
      assert (n as real - 1.0) * t < x;
      assert (n - 1) as real == n as real - 1.0;
    }
  }

  /** `Mathf.FloorToInt(low / spacing)`: the index of the cell holding `low`. */
  function GridStart(low: real, spacing: real): (n: int)
    requires spacing != 0.0
    ensures 0.0 < spacing ==> n as real * spacing <= low < (n + 1) as real * spacing
  {
    var n := CellIndex(low, spacing);
    CellCorner(low, spacing);
    assert (n + 1) as real * spacing == n as real * spacing + spacing;
    n
  }

  /** The grid over the x and z extent of the camera bounds. */
  function GridFor(b: Bounds, spacing: real): Grid
    requires spacing != 0.0
  {
    Grid(GridSize(Size(b).x, spacing), GridSize(Size(b).z, spacing),
         GridStart(Min(b).x, spacing), GridStart(Min(b).z, spacing))
  }

  /** `Mathf.CeilToInt((float)n / 8)`: the thread groups needed for `n` cells. */
  function DispatchGroups(n: int): (g: int)
    ensures (g - 1) * ThreadGroupSize < n <= g * ThreadGroupSize
  {
    CeilToInt(n as real / ThreadGroupSize as real)
  }

  /** Rounding up `n / 8` is the integer division `(n + 7) / 8`, for every `n` including negative ones. */
  lemma DispatchGroupsIntegerForm(n: int)
    ensures DispatchGroups(n) == (n + ThreadGroupSize - 1) / ThreadGroupSize
  {
    var g, q := DispatchGroups(n), (n + ThreadGroupSize - 1) / ThreadGroupSize;
    assert q * ThreadGroupSize <= n + ThreadGroupSize - 1 < (q + 1) * ThreadGroupSize;
    assert g <= q && q <= g;
  }

  /** Groups are only dispatched for cells: none for an empty grid, and fewer than 8 idle threads per row. */
  lemma DispatchGroupsTight(n: int)
    requires 0 <= n
    ensures n == 0 <==> DispatchGroups(n) == 0
    ensures 0 <= DispatchGroups(n) * ThreadGroupSize - n < ThreadGroupSize
  {
  }

  /**
   `n` cells of `spacing` from cell `k` cover `[low, high]` up to less than
   one spacing at the top: they start at or below `low` and end within one
   spacing of `high`.
   */
  predicate AxisCovered(low: real, high: real, spacing: real, n: int, k: int)
  {
    && 0 <= n
    && k as real * spacing <= low
    && high - spacing < (k + n) as real * spacing
  }

  /** One axis of the grid: the cell count and start cell computed for `[low, high]` cover it. */
  lemma AxisCoverage(low: real, high: real, spacing: real, n: int, k: int)
    requires 0.0 < spacing && low <= high
    requires n == GridSize(high - low, spacing) && k == GridStart(low, spacing)
    ensures AxisCovered(low, high, spacing, n, k)
  {
    var nr, kr := n as real, k as real;
    assert low < kr * spacing + spacing by {
      assert (kr + 1.0) * spacing == kr * spacing + spacing;
    }
    assert high - low <= nr * spacing;
    assert (kr + nr) * spacing == kr * spacing + nr * spacing;
  }

  /**
   On each horizontal axis the grid starts at or below the bounds' minimum
   and its cells reach to within one spacing of the maximum: the last cell
   may stop short of the maximum by less than one spacing.
   */
  lemma GridCoverage(b: Bounds, spacing: real)
    requires 0.0 < spacing
    requires 0.0 <= b.extents.x && 0.0 <= b.extents.z
    ensures var g := GridFor(b, spacing);
      && AxisCovered(Min(b).x, Max(b).x, spacing, g.sizeX, g.startX)
      && AxisCovered(Min(b).z, Max(b).z, spacing, g.sizeZ, g.startZ)
  {
    var g := GridFor(b, spacing);
    assert Size(b).x == Max(b).x - Min(b).x && Size(b).z == Max(b).z - Min(b).z;
    AxisCoverage(Min(b).x, Max(b).x, spacing, g.sizeX, g.startX);
    AxisCoverage(Min(b).z, Max(b).z, spacing, g.sizeZ, g.startZ);
  }
}

=== FILE: InfiniteGrassRenderer.dfy ===
/**
 The per-frame work of `InfiniteGrassRenderer.LateUpdate`: release last
 frame's buffers, skip the frame when the spacing is zero or the grass
 material is missing, otherwise allocate the indirect-arguments buffer and
 the debug buffer, fill the five-entry argument record from the blade mesh,
 set the material's parameters and issue one indirect instanced draw of the
 blade over the camera bounds.

 Unity's calls become `Action`s in the order the frame issues them. Each
 `GetGrassMeshCache()` call of the frame is one lookup of the chosen cache
 version of `MeshCache` (the source's, or the corrected one), and a lookup
 that throws ends the frame.
 */
module InfiniteGrassRenderer {
  import opened Options
  import opened Mathf
  import opened Geometry
  import opened BladeMesh
  import opened MeshCache
  import opened CenterPosition
  import opened CameraBounds
  import opened Traces

  /** The inspector fields a frame reads; `hasGrassMaterial` is Unity's truth test of `grassMaterial`. */
  datatype Settings = Settings(
    hasGrassMaterial: bool,
    spacing: real,
    drawDistance: real,
    fullDensityDistance: real,
    grassMeshSubdivision: int,
    textureUpdateThreshold: real,
    maxBufferCount: real,
    previewVisibleGrassCount: bool)

  /** What the main camera contributes: its position and the eight frustum corners out to the draw distance. */
  datatype CameraView = CameraView(position: Vec3, frustum: Frustum)

  /** The number of `uint`s in an indirect-arguments record. */
  const ArgsCount: nat := 5

  /** `maxBufferCount` counts millions of instances. */
  const InstancesPerUnit: real := 1000000.0

  /**
   A `ComputeBuffer` field: never assigned (null), holding live data, or
   released. A buffer is created zero-filled.
   */
  datatype Buffer = Unset | Live(contents: seq<int>) | Released

  /** The renderer's frame-to-frame state: its two buffers and the mesh cache. */
  datatype Renderer = Renderer(argsBuffer: Buffer, temporalBuffer: Buffer, cache: Cache)

  /** The renderer as it is enabled: no buffers yet and an empty cache. */
  const InitialRenderer: Renderer := Renderer(Unset, Unset, InitialCache)

  /** The Unity calls of a frame. */
  datatype Action =
    | ReleaseArgs
    | ReleaseTemporal
    | CreateArgs
    | CreateTemporal
    | SetArgs(args: seq<int>)
    | SetMaterial(centerPos: Vec2, drawDistance: real, textureUpdateThreshold: real)
    | DrawIndirect(mesh: Mesh, bounds: Bounds)

  /**
   One frame: the renderer afterwards, the actions in order, whether an
   exception ended it, and how many mesh lookups rebuilt the mesh.
   */
  datatype Frame = Frame(renderer: Renderer, actions: seq<Action>, threw: bool, rebuilds: nat)

  predicate IsDraw(a: Action)
  {
    a.DrawIndirect?
  }

  /** `(uint)(maxBufferCount * 1000000)`: the instance capacity, truncated toward zero. */
  function InstanceCapacity(maxBufferCount: real): (n: int)
    ensures 0.0 <= maxBufferCount ==> 0 <= n && n as real <= maxBufferCount * InstancesPerUnit < (n + 1) as real
  {
    TruncToInt(maxBufferCount * InstancesPerUnit)
  }

  /** `Mesh.GetIndexCount(0)`: the blade has one submesh, holding every index. */
  function IndexCount(m: Mesh): int
  {
    |m.triangles|
  }

  /** `Mesh.GetIndexStart(0)`: the only submesh starts at the first index. */
  function IndexStart(m: Mesh): int
  {
    0
  }

  /** `Mesh.GetBaseVertex(0)`: `SetTriangles(triangles, 0)` leaves the base vertex at 0. */
  function BaseVertex(m: Mesh): int
  {
    0
  }

  /**
   The record `InitializeBuffers` writes: index count, instance count, index
   start, base vertex, start instance. The three mesh arguments are the
   results of its three `GetGrassMeshCache()` calls.
   */
  function InitializeArgs(countMesh: Mesh, startMesh: Mesh, baseMesh: Mesh, maxBufferCount: real): (args: seq<int>)
    ensures |args| == ArgsCount
  {
    [IndexCount(countMesh), InstanceCapacity(maxBufferCount), IndexStart(startMesh), BaseVertex(baseMesh), 0]
  }

  /** The argument record of the blade: `3(1 + 2s)` indices, the instance capacity, and zeros. */
  lemma ArgsOfBlade(s: nat, maxBufferCount: real)
    ensures InitializeArgs(Blade(s), Blade(s), Blade(s), maxBufferCount)
         == [3 * (1 + 2 * s), InstanceCapacity(maxBufferCount), 0, 0, 0]
    ensures InitializeArgs(Blade(s), Blade(s), Blade(s), maxBufferCount)[0] == |Blade(s).triangles|
  {
    BladeCounts(s);
  }

  /** `ArgsBuffer?.Release(); TemporalBuffer?.Release();`: every assigned buffer is released. */
  function ReleaseBuffers(r: Renderer): (f: Frame)
    ensures !f.renderer.argsBuffer.Live? && !f.renderer.temporalBuffer.Live?
    ensures f.renderer.argsBuffer.Unset? <==> r.argsBuffer.Unset?
    ensures f.renderer.temporalBuffer.Unset? <==> r.temporalBuffer.Unset?
    ensures f.renderer.cache == r.cache && !f.threw && f.rebuilds == 0
    ensures ReleaseArgs in f.actions <==> !r.argsBuffer.Unset?
    ensures ReleaseTemporal in f.actions <==> !r.temporalBuffer.Unset?
    ensures forall a :: a in f.actions ==> a == ReleaseArgs || a == ReleaseTemporal
  {
    var args := if r.argsBuffer.Unset? then Unset else Released;
    var temporal := if r.temporalBuffer.Unset? then Unset else Released;
    var actions := (if r.argsBuffer.Unset? then [] else [ReleaseArgs])
                 + (if r.temporalBuffer.Unset? then [] else [ReleaseTemporal]);
    Frame(Renderer(args, temporal, r.cache), actions, false, 0)
  }

  /**
   Releasing again changes no buffer state: a released buffer stays
   released, a null field stays null, and the cache is untouched.
   */
  lemma ReleaseTwice(r: Renderer)
    ensures ReleaseBuffers(ReleaseBuffers(r).renderer).renderer == ReleaseBuffers(r).renderer
  {
  }

  /** One if the lookup rebuilt the mesh. */
  function RebuildCount(l: Lookup): nat
  {
    if l.rebuilt then 1 else 0
  }

  /**
   `InitializeBuffers`: create both buffers, then read the index count, index
   start and base vertex through three `GetGrassMeshCache()` calls and write
   the record. The first call is the only one that can miss the cache; if it
   throws, the frame ends with the buffers created and not filled, and the
   source's cache is left holding an empty mesh.
   */
  function InitializeBuffers(v: CacheVersion, r: Renderer, st: Settings): (f: Frame)
    ensures f.renderer.argsBuffer.Live? && f.renderer.temporalBuffer == Live([0])
    ensures 2 <= |f.actions| <= 3 && f.actions[..2] == [CreateArgs, CreateTemporal]
    ensures f.threw <==> st.grassMeshSubdivision < 0 && !IsHit(r.cache, st.grassMeshSubdivision)
    ensures !f.threw ==> IsHit(f.renderer.cache, st.grassMeshSubdivision)
    ensures !f.threw ==> f.actions == [CreateArgs, CreateTemporal, SetArgs(f.renderer.argsBuffer.contents)]
    ensures f.threw ==> f.actions == [CreateArgs, CreateTemporal]
    ensures f.threw ==> f.renderer.cache == if v.Corrected? then r.cache else Cache(Some(EmptyMesh), r.cache.oldSubdivision)
    ensures f.rebuilds <= 1
    ensures Coherent(r.cache) && (v.Corrected? || 0 <= st.grassMeshSubdivision) ==> Coherent(f.renderer.cache)
    ensures Coherent(r.cache) ==> (f.threw <==> st.grassMeshSubdivision < 0)
    ensures Coherent(r.cache) && !f.threw ==>
      f.renderer.argsBuffer.contents == InitializeArgs(Blade(st.grassMeshSubdivision), Blade(st.grassMeshSubdivision), Blade(st.grassMeshSubdivision), st.maxBufferCount)
  {
    var s := st.grassMeshSubdivision;
    var created := r.(argsBuffer := Live(seq(ArgsCount, _ => 0)), temporalBuffer := Live([0]));
    var l1 := LookupWith(v, r.cache, s);
    if l1.mesh.None? then
      Frame(created.(cache := l1.cache), [CreateArgs, CreateTemporal], true, RebuildCount(l1))
    else
      var l2 := LookupWith(v, l1.cache, s);
      var l3 := LookupWith(v, l2.cache, s);
      var args := InitializeArgs(l1.mesh.value, l2.mesh.value, l3.mesh.value, st.maxBufferCount);
      Frame(created.(argsBuffer := Live(args), cache := l3.cache),
            [CreateArgs, CreateTemporal, SetArgs(args)], false, RebuildCount(l1))
  }

  /** The guard of `LateUpdate`: the frame is skipped for a zero spacing or a missing material. */
  predicate Skips(st: Settings)
  {
    st.spacing == 0.0 || !st.hasGrassMaterial
  }

  /**
   `LateUpdate`. The camera bounds are the renderer's own variant; the
   material's parameters are set after the buffers; the draw takes a fourth
   `GetGrassMeshCache()` call, which always hits the cache the first call
   filled.
   */
  function LateUpdate(v: CacheVersion, r: Renderer, st: Settings, cam: CameraView): (f: Frame)
    requires !Skips(st) ==> st.textureUpdateThreshold != 0.0
    ensures ReleaseBuffers(r).actions <= f.actions
    ensures Coherent(r.cache) && (v.Corrected? || 0 <= st.grassMeshSubdivision) ==> Coherent(f.renderer.cache)
    ensures f.rebuilds <= 1
  {
    var released := ReleaseBuffers(r);
    if Skips(st) then released
    else
      var bounds := CalculateCameraBoundsMaxMin(cam.frustum);
      var centerPos := CalculateCenterPosition(cam.position, st.textureUpdateThreshold);
      var init := InitializeBuffers(v, released.renderer, st);
      if init.threw then
        Frame(init.renderer, released.actions + init.actions, true, init.rebuilds)
      else
        var l4 := LookupWith(v, init.renderer.cache, st.grassMeshSubdivision);
        Frame(init.renderer.(cache := l4.cache),
              released.actions + init.actions
                + [SetMaterial(centerPos, st.drawDistance, st.textureUpdateThreshold), DrawIndirect(l4.mesh.value, bounds)],
              false, init.rebuilds + RebuildCount(l4))
  }

  /**
   A skipped frame only releases: it leaves no buffer live, issues no draw,
   does not touch the mesh cache, and only a skipped frame does all that.
   */
  lemma SkippedFrame(v: CacheVersion, r: Renderer, st: Settings, cam: CameraView)
    requires !Skips(st) ==> st.textureUpdateThreshold != 0.0
    ensures Skips(st) <==>
      var f := LateUpdate(v, r, st, cam);
      && f.actions == ReleaseBuffers(r).actions
      && !f.renderer.argsBuffer.Live? && !f.renderer.temporalBuffer.Live?
      && f.renderer.cache == r.cache
  {
  }

  /**
   The shape of a frame that gets past `InitializeBuffers`: its actions are
   the releases, the buffer set-up, then the material parameters and the
   draw of the mesh the cache now holds.
   */
  lemma CompletedFrameShape(v: CacheVersion, r: Renderer, st: Settings, cam: CameraView)
    requires !Skips(st) && st.textureUpdateThreshold != 0.0
    requires !InitializeBuffers(v, ReleaseBuffers(r).renderer, st).threw
    ensures var released := ReleaseBuffers(r);
      var init := InitializeBuffers(v, released.renderer, st);
      var f := LateUpdate(v, r, st, cam);
      && init.renderer.cache.cached.Some?
      && f.actions == released.actions + init.actions
           + [SetMaterial(CalculateCenterPosition(cam.position, st.textureUpdateThreshold), st.drawDistance, st.textureUpdateThreshold),
              DrawIndirect(init.renderer.cache.cached.value, CalculateCameraBoundsMaxMin(cam.frustum))]
      && f.renderer == init.renderer
      && !f.threw && f.rebuilds == init.rebuilds
  {
  }

  /** Past the guard, a coherent cache and a valid subdivision get the frame through `InitializeBuffers` with the blade cached. */
  lemma InitializedWithBlade(v: CacheVersion, r: Renderer, st: Settings)
    requires Coherent(r.cache) && 0 <= st.grassMeshSubdivision
    ensures var init := InitializeBuffers(v, ReleaseBuffers(r).renderer, st);
      && !init.threw
      && init.renderer.cache.cached == Some(Blade(st.grassMeshSubdivision))
      && init.renderer.argsBuffer == Live([3 * (1 + 2 * st.grassMeshSubdivision), InstanceCapacity(st.maxBufferCount), 0, 0, 0])
  {
    ArgsOfBlade(st.grassMeshSubdivision, st.maxBufferCount);
  }

  /**
   A frame that is not skipped, with a valid subdivision, completes: both
   buffers are live, the argument record is the blade's, and exactly one
   indirect draw is issued, of the blade for the current subdivision, over
   the camera bounds (the same box the data pass computes).
   */
  lemma DrawnFrame(v: CacheVersion, r: Renderer, st: Settings, cam: CameraView)
    requires !Skips(st) && st.textureUpdateThreshold != 0.0
    requires Coherent(r.cache) && 0 <= st.grassMeshSubdivision
    ensures var f := LateUpdate(v, r, st, cam);
      var s := st.grassMeshSubdivision;
      && !f.threw
      && f.renderer.argsBuffer == Live([3 * (1 + 2 * s), InstanceCapacity(st.maxBufferCount), 0, 0, 0])
      && f.renderer.temporalBuffer.Live?
      && Filter(f.actions, IsDraw) == [DrawIndirect(Blade(s), CalculateCameraBounds(cam.frustum))]
  {
    var s := st.grassMeshSubdivision;
    var f := LateUpdate(v, r, st, cam);
    var released := ReleaseBuffers(r);
    var init := InitializeBuffers(v, released.renderer, st);
    var material := SetMaterial(CalculateCenterPosition(cam.position, st.textureUpdateThreshold), st.drawDistance, st.textureUpdateThreshold);
    var draw := DrawIndirect(Blade(s), CalculateCameraBounds(cam.frustum));
    assert !f.threw && f.actions == released.actions + init.actions + [material, draw] by {
      InitializedWithBlade(v, r, st);
      CompletedFrameShape(v, r, st, cam);
      CameraBoundsVariantsAgree(cam.frustum);
    }
    DrawnFrameBuffers(v, r, st, cam);
    SetupHasNoDraw(v, r, st);
    DrawsOfFrame(released.actions, init.actions, material, draw);
  }

  /** After a drawn frame the arguments buffer holds the blade's record and the debug buffer its zero slot. */
  lemma DrawnFrameBuffers(v: CacheVersion, r: Renderer, st: Settings, cam: CameraView)
    requires !Skips(st) && st.textureUpdateThreshold != 0.0
    requires Coherent(r.cache) && 0 <= st.grassMeshSubdivision
    ensures var f := LateUpdate(v, r, st, cam);
      && f.renderer.argsBuffer == Live([3 * (1 + 2 * st.grassMeshSubdivision), InstanceCapacity(st.maxBufferCount), 0, 0, 0])
      && f.renderer.temporalBuffer == Live([0])
  {
    InitializedWithBlade(v, r, st);
    CompletedFrameShape(v, r, st, cam);
  }

  /** Releasing and initialising the buffers issue no draw. */
  lemma SetupHasNoDraw(v: CacheVersion, r: Renderer, st: Settings)
    ensures forall a :: a in ReleaseBuffers(r).actions ==> !a.DrawIndirect?
    ensures forall a :: a in InitializeBuffers(v, ReleaseBuffers(r).renderer, st).actions ==> !a.DrawIndirect?
  {
    var init := InitializeBuffers(v, ReleaseBuffers(r).renderer, st);
    if init.threw {
      assert init.actions == [CreateArgs, CreateTemporal];
    } else {
      assert init.actions == [CreateArgs, CreateTemporal, SetArgs(init.renderer.argsBuffer.contents)];
    }
  }

  /** The set-up actions of a frame hold no draw, so the frame's only draw is the one at its end. */
  lemma DrawsOfFrame(released: seq<Action>, init: seq<Action>, material: Action, draw: Action)
    requires forall a :: a in released ==> !a.DrawIndirect?
    requires forall a :: a in init ==> !a.DrawIndirect?
    requires !material.DrawIndirect? && draw.DrawIndirect?
    ensures Filter(released + init + [material, draw], IsDraw) == [draw]
  {
    FilterAppend(released + init, [material, draw], IsDraw);
    FilterAppend(released, init, IsDraw);
    FilterNone(released, IsDraw);
    FilterNone(init, IsDraw);
    assert [material, draw][1..] == [draw];
    assert [draw][1..] == [];
  }

  /**
   A frame with a negative subdivision throws in `InitializeBuffers`: both
   buffers are created, the argument record is never written, and nothing is
   drawn. The source's cache is left holding an empty mesh under the old
   subdivision; the corrected cache is left as it was.
   */
  lemma ThrowingFrame(v: CacheVersion, r: Renderer, st: Settings, cam: CameraView)
    requires !Skips(st) && st.textureUpdateThreshold != 0.0
    requires Coherent(r.cache) && st.grassMeshSubdivision < 0
    ensures var f := LateUpdate(v, r, st, cam);
      && f.threw
      && f.renderer.argsBuffer.Live? && f.renderer.temporalBuffer.Live?
      && f.actions == ReleaseBuffers(r).actions + [CreateArgs, CreateTemporal]
      && f.renderer.cache == if v.Corrected? then r.cache else Cache(Some(EmptyMesh), r.cache.oldSubdivision)
  {
  }

  /**
   The source's renderer draws an empty mesh: with subdivision -1 from the
   renderer's initial state, the first frame throws and leaves an empty mesh
   cached under `oldSubdivision = -1`; the second frame hits that entry,
   writes an index count of 0 and issues the draw with the empty mesh.
   */
  lemma AsWrittenFrameDrawsEmptyMesh(st: Settings, cam1: CameraView, cam2: CameraView)
    requires !Skips(st) && st.textureUpdateThreshold != 0.0 && st.grassMeshSubdivision == -1
    ensures var f1 := LateUpdate(AsWritten, InitialRenderer, st, cam1);
      var f2 := LateUpdate(AsWritten, f1.renderer, st, cam2);
      var args := [0, InstanceCapacity(st.maxBufferCount), 0, 0, 0];
      && f1.threw && !f2.threw
      && f2.actions == [ReleaseArgs, ReleaseTemporal, CreateArgs, CreateTemporal, SetArgs(args),
                        SetMaterial(CalculateCenterPosition(cam2.position, st.textureUpdateThreshold), st.drawDistance, st.textureUpdateThreshold),
                        DrawIndirect(EmptyMesh, CalculateCameraBoundsMaxMin(cam2.frustum))]
  {
    var f1 := LateUpdate(AsWritten, InitialRenderer, st, cam1);
    assert f1.renderer.cache == Cache(Some(EmptyMesh), -1);
    CompletedFrameShape(AsWritten, f1.renderer, st, cam2);
  }

  /** The corrected renderer, in the same two frames, throws again instead of drawing. */
  lemma CorrectedFrameThrowsAgain(st: Settings, cam1: CameraView, cam2: CameraView)
    requires !Skips(st) && st.textureUpdateThreshold != 0.0 && st.grassMeshSubdivision == -1
    ensures var f1 := LateUpdate(Corrected, InitialRenderer, st, cam1);
      var f2 := LateUpdate(Corrected, f1.renderer, st, cam2);
      && f1.threw && f2.threw
      && forall a :: a in f2.actions ==> !a.DrawIndirect?
  {
    InitialCacheCoherent();
    ThrowingFrame(Corrected, InitialRenderer, st, cam1);
    var f1 := LateUpdate(Corrected, InitialRenderer, st, cam1);
    ThrowingFrame(Corrected, f1.renderer, st, cam2);
  }

  /**
   Two consecutive frames with the same settings rebuild the mesh at most
   once between them: the second frame's lookups all hit the cache.
   */
  lemma ConsecutiveFramesRebuildOnce(v: CacheVersion, r: Renderer, st: Settings, cam1: CameraView, cam2: CameraView)
    requires !Skips(st) ==> st.textureUpdateThreshold != 0.0
    requires 0 <= st.grassMeshSubdivision
    ensures var f1 := LateUpdate(v, r, st, cam1);
      var f2 := LateUpdate(v, f1.renderer, st, cam2);
      f1.rebuilds + f2.rebuilds <= 1
  {
    if !Skips(st) {
      var f1 := LateUpdate(v, r, st, cam1);
      var init1 := InitializeBuffers(v, ReleaseBuffers(r).renderer, st);
      assert !init1.threw;
      CompletedFrameShape(v, r, st, cam1);
      assert IsHit(f1.renderer.cache, st.grassMeshSubdivision);
      var init2 := InitializeBuffers(v, ReleaseBuffers(f1.renderer).renderer, st);
      assert init2.rebuilds == 0;
      CompletedFrameShape(v, f1.renderer, st, cam2);
    }
  }
}

=== FILE: Mathf.dfy ===
/**
 The numeric helpers the grass scripts use (Unity's `Mathf` and C#'s numeric
 casts), over unbounded `real` and `int`. IEEE rounding is not modelled: a
 `float` is a `real`, and every float-to-int conversion is an explicit floor,
 ceiling or truncation.
 */
module Mathf {

  /** `Mathf.FloorToInt`, and `Mathf.Floor` of a value that is then used as an integer. */
  function FloorToInt(r: real): (n: int)
    ensures n as real <= r < n as real + 1.0
  {
    r.Floor
  }

  /** `Mathf.CeilToInt`: the least integer that is not below `r`. */
  function CeilToInt(r: real): (n: int)
    ensures r <= n as real < r + 1.0
  {
    -((-r).Floor)
  }

  /** A C# `(int)` or `(uint)` cast of a float: truncation toward zero. */
  function TruncToInt(r: real): (n: int)
    ensures 0.0 <= r ==> 0 <= n && n as real <= r < n as real + 1.0
    ensures r < 0.0 ==> n <= 0 && n as real - 1.0 < r <= n as real
  {
    if r >= 0.0 then r.Floor else -((-r).Floor)
  }

  /** `Mathf.Abs`. */
  function Abs(r: real): (a: real)
    ensures 0.0 <= a
    ensures a == r || a == -r
  {
    if r < 0.0 then -r else r
  }

  /**
   `Mathf.Max(params float[])` and LINQ's `Max`: walk the values left to right,
   keeping the running maximum and replacing it only by a strictly greater value.
   */
  function MaxOf(xs: seq<real>): (m: real)
    requires |xs| > 0
    ensures m in xs
    ensures forall i :: 0 <= i < |xs| ==> xs[i] <= m
  {
    if |xs| == 1 then xs[0]
    else
      var running := MaxOf(xs[..|xs| - 1]);
      if xs[|xs| - 1] > running then xs[|xs| - 1] else running
  }

  /** `Mathf.Min(params float[])` and LINQ's `Min`, the mirror image of `MaxOf`. */
  function MinOf(xs: seq<real>): (m: real)
    requires |xs| > 0
    ensures m in xs
    ensures forall i :: 0 <= i < |xs| ==> m <= xs[i]
  {
    if |xs| == 1 then xs[0]
    else
      var running := MinOf(xs[..|xs| - 1]);
      if xs[|xs| - 1] < running then xs[|xs| - 1] else running
  }

  /** The maximum depends only on which values occur, not on their order or repetition. */
  lemma MaxOfSameValues(xs: seq<real>, ys: seq<real>)
    requires |xs| > 0 && |ys| > 0
    requires forall v :: v in xs <==> v in ys
    ensures MaxOf(xs) == MaxOf(ys)
  {
    var a, b := MaxOf(xs), MaxOf(ys);
    var i :| 0 <= i < |ys| && ys[i] == a;
    var j :| 0 <= j < |xs| && xs[j] == b;
    assert a <= b && b <= a;
  }

  /** The minimum depends only on which values occur, not on their order or repetition. */
  lemma MinOfSameValues(xs: seq<real>, ys: seq<real>)
    requires |xs| > 0 && |ys| > 0
    requires forall v :: v in xs <==> v in ys
    ensures MinOf(xs) == MinOf(ys)
  {
    var a, b := MinOf(xs), MinOf(ys);
    var i :| 0 <= i < |ys| && ys[i] == a;
    var j :| 0 <= j < |xs| && xs[j] == b;
    assert a <= b && b <= a;
  }

  /** Multiplying by a positive factor preserves a strict order. */
  lemma MulStrictMono(a: real, b: real, t: real)
    requires a < b && 0.0 < t
    ensures a * t < b * t
  {
    assert b * t - a * t == (b - a) * t;
  }

  /** Multiplying by a positive factor preserves a weak order. */
  lemma MulMono(a: real, b: real, t: real)
    requires a <= b && 0.0 < t
    ensures a * t <= b * t
  {
    assert b * t - a * t == (b - a) * t;
  }

  /** Dividing by a positive divisor preserves a weak order. */
  lemma DivMono(a: real, b: real, t: real)
    requires a <= b && 0.0 < t
    ensures a / t <= b / t
  {
    assert b / t - a / t == (b - a) / t;
  }
}

=== FILE: MeshCache.dfy ===
/**
 The blade-mesh cache of `GetGrassMeshCache`: the renderer keeps the last
 built mesh and the subdivision it was built for, and rebuilds only when
 there is no mesh yet or the subdivision setting has changed.

 A negative subdivision from -2^29 up makes the vertex-array allocation
 throw, because `3 + 4 * s` is then a negative count that does not wrap.
 The source replaces the cached mesh by a fresh, empty `Mesh` before that
 allocation, so the failure leaves an empty mesh in the cache under the
 previous subdivision (`GetGrassMeshCacheAsWritten`).
 `GetGrassMeshCacheCorrected` is the corrected cache, which leaves the cache
 untouched when the build throws.
 `LookupWith` selects either version for the renderer model.
 */
module MeshCache {
  import opened Options
  import opened BladeMesh

  /** `cachedGrassMesh` (`None` while it is null) and `oldSubdivision`. */
  datatype Cache = Cache(cached: Option<Mesh>, oldSubdivision: int)

  /** The renderer's fields before the first call: no mesh, `oldSubdivision = -1`. */
  const InitialCache: Cache := Cache(None, -1)

  /**
   The outcome of one call: the cache afterwards, the returned mesh (`None`
   when the call throws) and whether the call went past the cache check.
   */
  datatype Lookup = Lookup(cache: Cache, mesh: Option<Mesh>, rebuilt: bool)

  /** The cache check of the source: a mesh is cached and was built for the requested subdivision. */
  predicate IsHit(c: Cache, s: int)
  {
    c.cached.Some? && c.oldSubdivision == s
  }

  /**
   Every cached mesh is the blade of the subdivision recorded with it. The
   corrected cache keeps this; the cache as written does not.
   */
  predicate Coherent(c: Cache)
  {
    c.cached.Some? ==> 0 <= c.oldSubdivision && c.cached.value == Blade(c.oldSubdivision)
  }

  /**
   `GetGrassMeshCache` as written: on a miss the cached mesh is replaced by an
   empty mesh first, and a negative subdivision then throws before the blade
   is stored and before `oldSubdivision` is updated.
   */
  function GetGrassMeshCacheAsWritten(c: Cache, s: int): (l: Lookup)
    ensures l.rebuilt <==> !IsHit(c, s)
    ensures !l.rebuilt ==> l.cache == c && l.mesh == c.cached
    ensures l.rebuilt ==> (l.mesh.Some? <==> 0 <= s)
    ensures l.rebuilt && 0 <= s ==> l.mesh == Some(Blade(s)) && l.cache == Cache(l.mesh, s)
    ensures l.rebuilt && s < 0 ==> l.cache == Cache(Some(EmptyMesh), c.oldSubdivision)
  {
    if IsHit(c, s) then Lookup(c, c.cached, false)
    else if s < 0 then Lookup(Cache(Some(EmptyMesh), c.oldSubdivision), None, true)
    else Lookup(Cache(Some(Blade(s)), s), Some(Blade(s)), true)
  }

  /**
   The corrected cache: identical on a hit and on a successful build, but a
   throwing build leaves the cache as it was.
   */
  function GetGrassMeshCacheCorrected(c: Cache, s: int): (l: Lookup)
    ensures l.rebuilt <==> c.cached.None? || c.oldSubdivision != s
    ensures !l.rebuilt ==> l.cache == c && l.mesh == c.cached
    ensures l.mesh.Some? ==> l.cache.cached == l.mesh && l.cache.oldSubdivision == s
    ensures Coherent(c) ==> Coherent(l.cache)
    ensures Coherent(c) ==> (l.mesh.Some? <==> 0 <= s)
    ensures Coherent(c) && l.mesh.Some? ==> l.mesh.value == Blade(s)
  {
    if IsHit(c, s) then Lookup(c, c.cached, false)
    else if s < 0 then Lookup(c, None, true)
    else Lookup(Cache(Some(Blade(s)), s), Some(Blade(s)), true)
  }

  /** Which `GetGrassMeshCache` a renderer runs: the source's, or the corrected one. */
  datatype CacheVersion = AsWritten | Corrected

  /**
   One call of the chosen version. The two differ only when the build
   throws: the source leaves an empty mesh cached under the old
   subdivision, the corrected cache leaves the cache as it was.
   */
  function LookupWith(v: CacheVersion, c: Cache, s: int): (l: Lookup)
    ensures 0 <= s ==> l == GetGrassMeshCacheCorrected(c, s)
    ensures !l.rebuilt <==> IsHit(c, s)
    ensures !l.rebuilt ==> l.cache == c && l.mesh == c.cached
    ensures l.mesh.Some? ==> IsHit(l.cache, s)
    ensures l.mesh.None? <==> l.rebuilt && s < 0
    ensures l.mesh.None? ==> l.cache == if v.Corrected? then c else Cache(Some(EmptyMesh), c.oldSubdivision)
  {
    match v
    case AsWritten => GetGrassMeshCacheAsWritten(c, s)
    case Corrected => GetGrassMeshCacheCorrected(c, s)
  }

  /** A blade always has vertices, so it is never the empty mesh. */
  lemma BladeIsNotEmpty(s: nat)
    ensures Blade(s) != EmptyMesh
  {
    BladeCounts(s);
  }

  /**
   The cache as written serves a stale, empty mesh: after a blade for `s`
   was built, one call with a negative subdivision `n` throws, and the next
   call with `s` again is a cache hit that returns the empty mesh instead of
   the blade.
   */
  lemma AsWrittenServesEmptyMesh(c: Cache, s: nat, n: int)
    requires Coherent(c) && n < 0
    ensures var l1 := GetGrassMeshCacheAsWritten(c, s);
            var l2 := GetGrassMeshCacheAsWritten(l1.cache, n);
            var l3 := GetGrassMeshCacheAsWritten(l2.cache, s);
            && l1.mesh == Some(Blade(s))
            && l2.mesh.None?
            && !l3.rebuilt && l3.mesh == Some(EmptyMesh) && l3.mesh != Some(Blade(s))
  {
    BladeIsNotEmpty(s);
  }

  /**
   The cache as written also hands out the empty mesh without throwing when
   the subdivision is -1 from the start: the first call throws, the second
   finds a mesh and `oldSubdivision == -1`.
   */
  lemma AsWrittenEmptyMeshAtMinusOne()
    ensures var l1 := GetGrassMeshCacheAsWritten(InitialCache, -1);
            var l2 := GetGrassMeshCacheAsWritten(l1.cache, -1);
            l1.mesh.None? && l2.mesh == Some(EmptyMesh) && !l2.rebuilt
  {
  }

  /** The corrected cache, in the same scenario, returns the blade for `s` again without rebuilding. */
  lemma CorrectedRecoversAfterFailure(c: Cache, s: nat, n: int)
    requires n < 0
    ensures var l1 := GetGrassMeshCacheCorrected(c, s);
            var l2 := GetGrassMeshCacheCorrected(l1.cache, n);
            var l3 := GetGrassMeshCacheCorrected(l2.cache, s);
            && l2.mesh.None?
            && !l3.rebuilt && l3.mesh == l1.mesh
  {
  }

  /**
   The two versions differ only on a throwing build: for a non-negative
   subdivision they return the same mesh and leave the same cache.
   */
  lemma VersionsAgreeOnValidSubdivision(c: Cache, s: nat)
    ensures GetGrassMeshCacheAsWritten(c, s) == GetGrassMeshCacheCorrected(c, s)
  {
  }

  /** The lookups of a sequence of calls with subdivisions `ss`, starting from cache `c`. */
  function Lookups(c: Cache, ss: seq<int>): (ls: seq<Lookup>)
    ensures |ls| == |ss|
    ensures 0 < |ss| ==> ls[0] == GetGrassMeshCacheCorrected(c, ss[0])
    ensures forall i :: 0 < i < |ss| ==> ls[i] == GetGrassMeshCacheCorrected(ls[i - 1].cache, ss[i])
    decreases |ss|
  {
    if |ss| == 0 then []
    else
      var first := GetGrassMeshCacheCorrected(c, ss[0]);
      [first] + Lookups(first.cache, ss[1..])
  }

  /**
   Starting from the renderer's initial fields, every call of the corrected
   cache with a non-negative subdivision returns exactly that subdivision's
   blade, and every call with a negative one throws, whatever came before.
   */
  lemma {:induction false} CorrectedAlwaysReturnsBlade(c: Cache, ss: seq<int>)
    requires Coherent(c)
    ensures forall i :: 0 <= i < |ss| ==>
      Coherent(Lookups(c, ss)[i].cache) &&
      (Lookups(c, ss)[i].mesh.Some? <==> 0 <= ss[i]) &&
      (0 <= ss[i] ==> Lookups(c, ss)[i].mesh == Some(Blade(ss[i])))
    decreases |ss|
  {
    if |ss| > 0 {
      var first := GetGrassMeshCacheCorrected(c, ss[0]);
      CorrectedAlwaysReturnsBlade(first.cache, ss[1..]);
      var ls := Lookups(c, ss);
      assert ls == [first] + Lookups(first.cache, ss[1..]);
      forall i | 0 < i < |ss|
        ensures ls[i] == Lookups(first.cache, ss[1..])[i - 1]
      {
      }
    }
  }

  /** The initial fields are coherent, so `CorrectedAlwaysReturnsBlade` applies from the first frame. */
  lemma InitialCacheCoherent()
    ensures Coherent(InitialCache)
  {
  }

  /**
   From the renderer's initial fields, the corrected cache returns the blade
   for every non-negative subdivision and throws for every negative one.
   */
  lemma CorrectedFromStartup(ss: seq<int>)
    ensures forall i :: 0 <= i < |ss| ==>
      (Lookups(InitialCache, ss)[i].mesh.Some? <==> 0 <= ss[i]) &&
      (0 <= ss[i] ==> Lookups(InitialCache, ss)[i].mesh == Some(Blade(ss[i])))
  {
    InitialCacheCoherent();
    CorrectedAlwaysReturnsBlade(InitialCache, ss);
  }

  /** Two consecutive calls with the same valid subdivision rebuild at most once; the second is a hit returning the same mesh. */
  lemma AtMostOneRebuild(c: Cache, s: nat)
    ensures var l1 := GetGrassMeshCacheCorrected(c, s);
            var l2 := GetGrassMeshCacheCorrected(l1.cache, s);
            !l2.rebuilt && l2.mesh == l1.mesh && l2.cache == l1.cache
  {
  }

  /** After a successful build, a call with a different subdivision rebuilds. */
  lemma ChangeTriggersRebuild(c: Cache, s: nat, s': int)
    requires s' != s
    ensures GetGrassMeshCacheCorrected(GetGrassMeshCacheCorrected(c, s).cache, s').rebuilt
  {
  }
}

=== FILE: Options.dfy ===
/** The optional value used where the C# code throws or returns nothing. */
module Options {

  datatype Option<+T> = None | Some(value: T)
}

=== FILE: Traces.dfy ===
/**
 Traces: the ordered effects a frame issues (renderer actions, command-buffer
 commands), and the filter that picks out the effects of one kind.
 */
module Traces {

  /** The elements of `xs` that satisfy `p`, in their original order. */
  function Filter<T>(xs: seq<T>, p: T -> bool): (ys: seq<T>)
    ensures |ys| <= |xs|
    ensures forall y :: y in ys ==> y in xs && p(y)
    ensures forall x :: x in xs && p(x) ==> x in ys
    decreases |xs|
  {
    if |xs| == 0 then []
    else if p(xs[0]) then [xs[0]] + Filter(xs[1..], p)
    else Filter(xs[1..], p)
  }

  /** Filtering a concatenation filters each part: the order of the kept effects is preserved. */
  lemma {:induction false} FilterAppend<T>(xs: seq<T>, ys: seq<T>, p: T -> bool)
    ensures Filter(xs + ys, p) == Filter(xs, p) + Filter(ys, p)
    decreases |xs|
  {
    if |xs| == 0 {
      assert xs + ys == ys;
    } else {
      assert (xs + ys)[0] == xs[0];
      assert (xs + ys)[1..] == xs[1..] + ys;
      FilterAppend(xs[1..], ys, p);
    }
  }

  /** Nothing is kept from a sequence none of whose elements satisfies `p`. */
  lemma {:induction false} FilterNone<T>(xs: seq<T>, p: T -> bool)
    requires forall x :: x in xs ==> !p(x)
    ensures Filter(xs, p) == []
    decreases |xs|
  {
    if |xs| > 0 {
      assert xs[0] in xs;
      assert forall x :: x in xs[1..] ==> x in xs;
      FilterNone(xs[1..], p);
    }
  }

  /** `a` occurs at an earlier position of `xs` than `b`. */
  predicate OccursBefore<T(==)>(xs: seq<T>, a: T, b: T)
  {
    exists i, j :: 0 <= i < j < |xs| && xs[i] == a && xs[j] == b
  }
}
